=== FILE: README.md ===
# Shopora console: the pure state transitions, in Dafny

Shopora is a React administration console for a multi-tenant shop: a storefront with a cart and checkout, and back-office pages for products, customers, company settings, team members and themes. Almost all of it is rendering and REST calls. This project models the small pure parts that sit inside the page components. Each is a function from an immutable list or record to a new one. The project proves what those functions promise.

- **Storefront** (`src/pages/Storefront.jsx`). Covers the active-product filter, adding a cart line (no merging), removing lines by id, the cart total, the order request built from the cart, and the checkout transition on success and on failure. It also covers when the checkout button is enabled.
- **CompanyProfile** (`src/pages/admin/CompanyProfile.jsx`). Covers the supported-currency and supported-language lists: a duplicate-free append, and a removal that never touches the default entry. It also covers the default-currency and default-language setters.
- **TeamManagement** (`src/pages/admin/TeamManagement.jsx`). Covers the five-role permission table, member search with the role filter, role change, removal of members and revocation of invitations, and new invitations with their seven-day expiry.
- **ProductDetail** (`src/pages/ProductDetail.jsx`). Covers adding, editing and removing variants by position, and adding and removing trimmed, duplicate-free tags.
- **RouteGuards** (`src/components/auth/SellerRoute.jsx`, `src/components/auth/ProtectedRoute.jsx`). Covers the access decision each guard makes: render the page, redirect to `/login`, or redirect to `/store`.
- **CompanyLayout**, **CommandPalette**, **Themes**. Covers nav-link highlighting by path prefix, the command palette's search, shortcut and reset, and splitting themes into the current one and the rest.
- **ProductsOverview** (`src/pages/Products.jsx`), **ProductsCatalog** (`src/pages/products/Products.jsx`), **Customers** (`src/pages/Customers.jsx`). Covers the stock and status counters, normalising the list response, resetting the new-product form, and the customer order counters.

Three shared modules support these:
- `Wrappers` provides `Option` and `Result`.
- `Seqs` provides an order-preserving `Filter` with the predicate `IsSublist`, integer `Sum`, `NoDups`, and lemmas about them.
- `Text` models JavaScript `toLowerCase`, `includes`, `startsWith` and `trim`.

How the model handles values:
- Money is in integer cents.
- Server replies, clock readings and the parsed stored user are inputs to the functions.
- Calendar dates are UTC day numbers.

## Model

| member | source | states |
|---|---|---|
| Storefront.ActiveProducts | src/pages/Storefront.jsx:22 | the shown products are exactly the fetched ones with status "active", as an order-preserving sublist with multiplicities kept |
| Storefront.LoadCatalog | src/pages/Storefront.jsx:17-28 | a reply replaces the list by its active products; a failed request changes nothing |
| Storefront.AddToCart | src/pages/Storefront.jsx:30-33 | exactly one line (product, variant, id) is appended at the end, earlier lines unchanged, cart opened, nothing else changed |
| Storefront.PressAddButton | src/pages/Storefront.jsx:121-122 | the card button adds the product's first variant and does nothing for a product without variants |
| Storefront.AddAllAppends | src/pages/Storefront.jsx:30-31 | after any sequence of adds the cart is the old cart followed by the added lines, so its length grows by the number of adds (no merging) |
| Storefront.AddSameVariantTwice | src/pages/Storefront.jsx:31 | adding one variant twice gives two separate lines for it |
| Storefront.RemoveFromCart | src/pages/Storefront.jsx:35-37 | keeps exactly the lines whose id differs (every line with that id goes, ids need not be unique), order kept; an absent id is a no-op |
| Storefront.AddThenRemove | src/pages/Storefront.jsx:30-37 | adding a line with a fresh id and removing that id restores the cart |
| Storefront.Total | src/pages/Storefront.jsx:39 | the cart total is 0 for an empty cart and never negative when no line has a negative price |
| Storefront.TotalEmpty | src/pages/Storefront.jsx:39 | the empty cart totals 0 (the reduce's initial value) |
| Storefront.TotalCons | src/pages/Storefront.jsx:39 | a line in front of a cart adds exactly its price to the total |
| Storefront.TotalConcat | src/pages/Storefront.jsx:39 | the total of two carts joined is the sum of their totals |
| Storefront.TotalAfterAdd | src/pages/Storefront.jsx:39 | appending a line adds exactly its price to the total |
| Storefront.TotalAfterRemove | src/pages/Storefront.jsx:35-39 | the kept lines' total plus the removed lines' total is the old total |
| Storefront.ComputeTotal | src/pages/Storefront.jsx:39 | the left-to-right `reduce` loop computes the cart total (sum of line prices, 0 for the empty cart) |
| Storefront.OrderItems | src/pages/Storefront.jsx:52-56 | one item per cart line in cart order, carrying the line's variant id, quantity 1 and the line's price |
| Storefront.BuildRequest | src/pages/Storefront.jsx:45-58 | the request exists exactly when the catalogue is non-empty; it carries the first product's store id, the fixed test customer, exactly the order items of the cart (one per line in cart order, with the variant id, quantity 1 and the price), and a total equal to the cart total and to the sum of the item prices |
| Storefront.Checkout | src/pages/Storefront.jsx:41-71 | success empties the cart and raises the success flag; any failure (including the unbuildable request) keeps the cart and alerts; the in-flight flag ends false |
| Storefront.PressCheckout | src/pages/Storefront.jsx:139-177 | the button acts only inside the open cart panel; a disabled button (empty cart, checkout in flight, or success showing) does nothing, so an empty cart never reaches the order service; an enabled press sends the request built from the cart |
| Storefront.CheckoutEnabled | src/pages/Storefront.jsx:177 | the button is enabled exactly when the cart is non-empty, no checkout is in flight and no success message shows; an enabled button never lets an order with no items through |
| Storefront.NoDoubleSubmitAfterSuccess | src/pages/Storefront.jsx:177 | after a successful checkout the button is disabled |
| Storefront.RetryAfterFailure | src/pages/Storefront.jsx:65-70 | after a failure the button is enabled again and a retry sends the same request |
| CompanyProfile.AddAbsent | src/pages/admin/CompanyProfile.jsx:188-191 | the entry ends up listed, is appended only when absent, and the list stays duplicate-free |
| CompanyProfile.RemoveUnlessDefault | src/pages/admin/CompanyProfile.jsx:197-200 | removing the default is a no-op; otherwise every copy of that entry disappears and everything else is kept in order with its multiplicity; the default and duplicate-freedom are preserved |
| CompanyProfile.AddCurrency | src/pages/admin/CompanyProfile.jsx:187-194 | appends the currency only if absent, otherwise unchanged; the list stays duplicate-free; other settings untouched |
| CompanyProfile.RemoveCurrency | src/pages/admin/CompanyProfile.jsx:196-203 | a no-op for the default currency; otherwise every copy of it goes and every other entry is kept in order with its multiplicity; the default is never removed |
| CompanyProfile.AddLanguage | src/pages/admin/CompanyProfile.jsx:205-212 | the same duplicate-free append for languages |
| CompanyProfile.RemoveLanguage | src/pages/admin/CompanyProfile.jsx:214-221 | the same guarded removal for languages, with multiplicities kept; the default language is never removed |
| CompanyProfile.SetDefaultCurrency | src/pages/admin/CompanyProfile.jsx:514 | choosing the default currency leaves the supported list unchanged |
| CompanyProfile.SetDefaultLanguage | src/pages/admin/CompanyProfile.jsx:570 | choosing the default language leaves the supported list unchanged |
| CompanyProfile.AddThenRemoveCurrency | src/pages/admin/CompanyProfile.jsx:187-203 | adding a fresh non-default currency and removing it restores the settings |
| CompanyProfile.AddThenRemoveLanguage | src/pages/admin/CompanyProfile.jsx:205-221 | adding a fresh non-default language and removing it restores the settings |
| CompanyProfile.AddCurrencyTwice | src/pages/admin/CompanyProfile.jsx:187-194 | adding a currency is idempotent |
| CompanyProfile.DefaultNotAlwaysSupported | src/pages/admin/CompanyProfile.jsx:513-521 | "default is supported" is not an invariant: from the initial settings, default EUR is unsupported and USD can then be removed, leaving no supported currency |
| TeamManagement.FindIn | src/pages/admin/TeamManagement.jsx:206 | the lookup returns the first table entry with the requested id, and fails exactly when no entry has it |
| TeamManagement.RoleTable | src/pages/admin/TeamManagement.jsx:5-46 | exactly the five ids owner, admin, manager, employee and viewer are known, and the lookup gives each its permission list from the table |
| TeamManagement.FilteredMembers | src/pages/admin/TeamManagement.jsx:170-175 | an order-preserving sublist holding exactly the members whose name or e-mail contains the term case-insensitively and whose role passes the filter ("all" or equal), each as often as in the team list |
| TeamManagement.EmptySearchShowsAll | src/pages/admin/TeamManagement.jsx:170-175 | an empty term with filter "all" lists every member in order |
| TeamManagement.RoleFilterExact | src/pages/admin/TeamManagement.jsx:173 | with a specific role filter only members of that role are listed |
| TeamManagement.Reassign | src/pages/admin/TeamManagement.jsx:204-207 | only the members with the id get the new role and permissions; length and all others unchanged |
| TeamManagement.ChangeRole | src/pages/admin/TeamManagement.jsx:203-209 | fails exactly when the role is unknown and some member has the id; otherwise that member's role and table permissions change and nothing else does |
| TeamManagement.ChangeRoleIdempotent | src/pages/admin/TeamManagement.jsx:203-209 | repeating a successful role change changes nothing |
| TeamManagement.ChangeRoleKeepsPermissionsInStep | src/pages/admin/TeamManagement.jsx:203-209 | if every member's permissions match the table for its role, they still do after a role change |
| TeamManagement.RemoveMember | src/pages/admin/TeamManagement.jsx:211-213 | drops every member with the id and keeps every other entry, in order and with its multiplicity; no-op for an absent id |
| TeamManagement.RevokeInvite | src/pages/admin/TeamManagement.jsx:219-221 | drops every invitation with the id and keeps every other entry, in order and with its multiplicity; no-op for an absent id |
| TeamManagement.SendInviteAsWritten | src/pages/admin/TeamManagement.jsx:183-195 | as written: one invitation appended from the form, with the given id, pending, invited by "Current User", dated by the first clock reading and expiring seven days after the day of the second reading, so 7 or 8 days after its date when the readings are less than a day apart; form reset, dialog closed |
| TeamManagement.AsWrittenExpiryCanBeEightDays | src/pages/admin/TeamManagement.jsx:188-189 | readings 1 ms apart across UTC midnight give an expiry 8 days after the invitation date |
| TeamManagement.SendInvite | src/pages/admin/TeamManagement.jsx:183-195 | one invitation appended with the form's e-mail and role, status "pending", expiring exactly 7 days after its date; earlier invitations unchanged; form reset to its defaults, dialog closed |
| TeamManagement.SentFormCannotBeResent | src/pages/admin/TeamManagement.jsx:585 | after a send the reset form cannot be sent until an e-mail is typed (button disabled while loading or with an empty e-mail) |
| TeamManagement.CanSendInvite | src/pages/admin/TeamManagement.jsx:585 | sending is possible exactly when an e-mail is typed and no send is in progress; the default form cannot be sent |
| TeamManagement.SendThenRevoke | src/pages/admin/TeamManagement.jsx:219-221 | revoking a just-sent invitation with a fresh id restores the previous list |
| ProductDetail.SetField | src/pages/ProductDetail.jsx:69 | exactly the named field takes the new value; the other three fields are kept |
| ProductDetail.AddVariant | src/pages/ProductDetail.jsx:60-65 | appends one blank variant (empty title and sku, price and inventory 0); existing variants unchanged |
| ProductDetail.UpdateVariant | src/pages/ProductDetail.jsx:67-71 | fails exactly for an index outside the list; otherwise only field f of variant i changes, length and all other variants unchanged |
| ProductDetail.UpdateTwiceLastWins | src/pages/ProductDetail.jsx:67-71 | two edits of the same field of the same row leave only the last value |
| ProductDetail.RemoveVariant | src/pages/ProductDetail.jsx:73-76 | for an index in range the length drops by one, rows before it stay, rows after it shift down by one; out of range nothing is removed |
| ProductDetail.RemoveVariantIsCut | src/pages/ProductDetail.jsx:73-76 | removal by position equals cutting that one element out of the list |
| ProductDetail.AddThenRemoveVariant | src/pages/ProductDetail.jsx:60-76 | removing the variant just added restores the list |
| ProductDetail.HandleTagKey | src/pages/ProductDetail.jsx:78-86 | only Enter with non-blank input acts: the trimmed text is appended if absent, the input is cleared even for a duplicate; tags stay duplicate-free |
| ProductDetail.RemoveTag | src/pages/ProductDetail.jsx:88-90 | deletes every copy of the tag, keeps every other tag in order and with its multiplicity, preserves duplicate-freedom |
| ProductDetail.HandleTagKeyKeepsTagsClean | src/pages/ProductDetail.jsx:78-84 | the tag field never adds an empty tag or one with surrounding white space |
| ProductDetail.AddThenRemoveTag | src/pages/ProductDetail.jsx:78-90 | entering a fresh tag and removing it restores the tags |
| Text.Trim | src/pages/ProductDetail.jsx:79 | the trimmed text occurs in the input with only white space before and after it, has no white space at either end, and is empty exactly when the input is all white space |
| Text.TrimUnique | src/pages/ProductDetail.jsx:79 | the trimmed text is the only piece of the input that has just white space around it and none at its own ends, so the contract pins `trim` completely |
| Text.TrimIdempotent | src/pages/ProductDetail.jsx:79-82 | trimming twice equals trimming once |
| Text.Lower | src/components/layout/CommandPalette.jsx:37 | lower-casing keeps the length and maps each character on its own |
| Text.ContainsEmpty | src/components/layout/CommandPalette.jsx:37 | every text contains the empty query |
| Text.ContainsIff | src/components/layout/CommandPalette.jsx:37 | the substring search holds exactly when the needle occurs at some position of the text |
| Text.StartsWith | src/components/layout/CompanyLayout.jsx:22 | `startsWith` holds exactly when the prefix occurs at index 0; the empty prefix always matches |
| Text.Contains | src/components/layout/CommandPalette.jsx:37 | `includes` holds whenever the text starts with the needle, and never when the needle is longer than the text |
| RouteGuards.SellerRoute | src/components/auth/SellerRoute.jsx:10-28 | no token or no stored user, an unparsable user, or a null user goes to /login; roles SELLER and ADMIN are granted; any other parsed user goes to /store |
| RouteGuards.ProtectedRoute | src/components/auth/ProtectedRoute.jsx:4-22 | granted exactly for a present token and user with role ADMIN; every other case, SELLER included, goes to /login |
| RouteGuards.AdminAccessImpliesSellerAccess | src/components/auth/ProtectedRoute.jsx:14 | everyone the admin guard admits, the seller guard admits too |
| RouteGuards.SellerIsNotAdmin | src/components/auth/SellerRoute.jsx:20 | the inclusion is strict: a SELLER passes the seller guard and is sent to /login by the admin guard |
| CompanyLayout.IsActive | src/components/layout/CompanyLayout.jsx:18-23 | "/company" is active only on exactly "/company"; any other link is active iff the path starts with it |
| CompanyLayout.ActiveOnOwnPath | src/components/layout/CompanyLayout.jsx:18-23 | a path equal to the link's target is always active |
| CompanyLayout.ActiveIsPrefix | src/components/layout/CompanyLayout.jsx:18-23 | an active link's target is always a prefix of the path |
| CompanyLayout.RootInactiveOnSubpages | src/components/layout/CompanyLayout.jsx:19-21 | the dashboard link is inactive on every other path, "/company/team" included |
| CompanyLayout.AtMostOneActive | src/components/layout/CompanyLayout.jsx:10-23 | for any path at most one of the five navigation links is active |
| CommandPalette.FilteredActions | src/components/layout/CommandPalette.jsx:36-38 | an order-preserving sublist holding exactly the actions whose lower-cased name contains the lower-cased query, each as often as in the list |
| CommandPalette.EmptyQueryListsAll | src/components/layout/CommandPalette.jsx:6-17 | an empty query lists all ten actions in order |
| CommandPalette.KeyDown | src/components/layout/CommandPalette.jsx:25-30 | "k" with Ctrl or Meta flips the palette open/closed; any other key leaves it unchanged |
| CommandPalette.ShortcutTwice | src/components/layout/CommandPalette.jsx:26-29 | the shortcut pressed twice restores the palette |
| CommandPalette.OnAction | src/components/layout/CommandPalette.jsx:40-44 | choosing an action navigates to its target, closes the palette and clears the query |
| CommandPalette.ReopenAfterActionListsAll | src/components/layout/CommandPalette.jsx:40-44 | reopened after an action, the palette lists every action |
| Themes.CurrentTheme | src/pages/store/Themes.jsx:47 | the first theme with status "current", or none exactly when no theme is current |
| Themes.OtherThemes | src/pages/store/Themes.jsx:48 | exactly the themes whose status is not "current", in order and with their multiplicity |
| Themes.CurrentNotAmongOthers | src/pages/store/Themes.jsx:47-48 | the current theme never appears among the others |
| Themes.NoCurrentListsAll | src/pages/store/Themes.jsx:47-48 | with no current theme the others are the full list |
| Themes.Partition | src/pages/store/Themes.jsx:47-48 | the other themes and the current ones together number all themes |
| ProductsOverview.TotalInventory | src/pages/Products.jsx:39 | the nested reduce equals the sum of the row values and the sum of every variant's inventory |
| ProductsOverview.RowsSumAll | src/pages/Products.jsx:161 | summing the per-row inventories equals summing every variant of every product |
| ProductsOverview.RowInventory | src/pages/Products.jsx:161 | a product row's stock is 0 without variants and never negative when no inventory is |
| ProductsOverview.StatusCount | src/pages/Products.jsx:59-60 | the "Actifs" (status "active") and "Brouillons" (status "draft") counters: at most the product count, equal to it exactly when every product has that status, 0 when none has |
| ProductsOverview.CountersBounded | src/pages/Products.jsx:59-60 | counters of two different statuses, such as active and draft, add up to at most the number of products |
| ProductsOverview.StatusCountAppend | src/pages/Products.jsx:59-60 | one more product raises the counter of its own status by one and leaves the others unchanged |
| ProductsCatalog.ApplyListReply | src/pages/products/Products.jsx:28-41 | a non-array data field gives no products; a missing meta gives a total equal to the product count (0 for non-array data); a failed request empties the list and keeps the meta |
| ProductsCatalog.ListedReplyIgnoresPriorState | src/pages/products/Products.jsx:31-34 | a successful load's list and total depend only on the reply, not on what was shown before |
| ProductsCatalog.FailedThenListed | src/pages/products/Products.jsx:35-37 | a failed load keeps the total, and a later successful load ends where it would have without the failure |
| ProductsCatalog.ComputeStats | src/pages/products/Products.jsx:61-65 | each counter is at most the product count; active plus drafts too; no known inventory means nothing out of stock |
| ProductsCatalog.StatsAppend | src/pages/products/Products.jsx:62-64 | one more product raises each counter by one exactly when it is active, has inventory at most 0, or is a draft |
| ProductsCatalog.HandleCreate | src/pages/products/Products.jsx:45-59 | the form as typed, before its price and inventory are parsed, is what is submitted; success resets the form to its defaults, closes the dialog and reloads; failure alerts and keeps the form and the dialog |
| ProductsCatalog.RetryAfterFailedCreate | src/pages/products/Products.jsx:45-58 | after a failure, submitting again from the dialog left behind sends the very same form and ends exactly as the first attempt would have with the new answer |
| ProductsCatalog.CreateResetsForm | src/pages/products/Products.jsx:48-55 | after a success, an unedited next submission submits the blank form (a draft with inventory "0"), a different form from the one just created unless that was blank too |
| Customers.OrdersOf | src/pages/Customers.jsx:30 | a missing order count reads as 0 |
| Customers.TotalOrders | src/pages/Customers.jsx:30 | the order total is never negative and is 0 for no customers |
| Customers.TotalOrdersCons | src/pages/Customers.jsx:30 | one more customer adds exactly that customer's orders to the total |
| Customers.ActiveCustomers | src/pages/Customers.jsx:31 | at most the customer count, and 0 when nobody has an order |
| Customers.ActiveCons | src/pages/Customers.jsx:31 | one more customer raises the active count by one exactly when it has orders |
| Customers.ActiveAtMostOrders | src/pages/Customers.jsx:30-31 | the order total is never negative and the active count never exceeds it |
| Customers.AverageFrequency | src/pages/Customers.jsx:52 | a ratio of orders to customers exactly when the server total is positive (never a division by zero), otherwise the text "0" |
| Customers.FrequencyOfListedCustomers | src/pages/Customers.jsx:30-52 | with the server total equal to the listed customers, the card shows a ratio exactly when there is a customer, and its numerator is at least the active-customer count |

## Left out

- Rendering, styling, animation, modals, charts and routing wiring are pure presentation.
- Network calls are out. Each call's outcome is an input (`Reply`, `ListReply`, the `created` flag). The `storeId` taken from the first catalogue product is modelled as the source has it.
- Floating-point money is out. `parseFloat`, `toFixed(2)`, `toLocaleString` and the frequency division are not modelled. Prices are integer cents, so `Storefront.Total` is exact where the page's float sum may round.
- Timers are out: the 3-second reset of the success flag and of the cart panel, and the simulated API delays. Loading flags are out except where a button's enable condition reads them.
- The clock is out. `Date.now()` and `new Date()` become integer parameters. ISO date strings become UTC day numbers. Invitation ids and cart-line ids are parameters.
- Browser storage and `JSON.parse` are out. The guards take the two storage items and the parse outcome as inputs.
- Text.LowerChar: maps only ASCII and Latin-1 capitals, because full Unicode case mapping is a large table. JavaScript `toLowerCase` covers every script. `Text.Lower` also works one character at a time and keeps the length. `toLowerCase` does neither in general: U+0130 becomes two code units, and final sigma depends on the characters around it.
- Text.Contains: works on Unicode code points, not UTF-16 code units. The two differ only for characters outside the Basic Multilingual Plane.
- ProductsCatalog.ComputeStats: an inventory is a number or absent. JavaScript's `null <= 0` (true) and comparisons on non-numeric values are not modelled.
- ProductsCatalog.ApplyListReply: falsy data other than a missing field (`0`, `""`, `false`) is folded into `Missing`, which the source also treats as an empty list.
- Customers.OrdersOf: order counts are natural numbers. Non-numeric or negative `_count.orders` values are not modelled.
- ProductsCatalog.HandleCreate: `submitted` is the form as typed, with price and inventory still text. The service receives `parseFloat(price)` and `parseInt(inventory)` (lines 48-52), which is not modelled. Two forms that differ only in how a number is written (inventory "0" and "00") are different forms but send the same payload, so `ProductsCatalog.CreateResetsForm` speaks of forms, not of payloads.
- ProductDetail.UpdateVariant: price and inventory edits arrive as integers. The `parseFloat`/`parseInt` of the input, including `NaN`, is not modelled. The in-place write into the shallow-copied array, which also touches the previous state's object, has the same observable result as the modelled copy.
- CompanyProfile: `addCurrency` and the other list operations test the rendered state and update from the updater's `prev`. One event at a time, these are the same state. The other profile fields (contact, legal, payment) only hold form text and are not modelled.
- TeamManagement: `handleResendInvite` only logs. Members' display-only fields (avatar, last active, join date) are left out.
- CommandPalette.OnAction: navigation is returned as the target path, not performed.
- The order-detail status change is not part of this model. It is set locally only after the server accepts it, and any status can be chosen from any other, so there is no transition rule to verify.
- The doc comment of `SellerRoute` says a plain user is sent to `/login`. The code sends every parsed user whose role is neither SELLER nor ADMIN to `/store`, and `RouteGuards.SellerRoute` follows the code.
- Storefront.Checkout: checkout is one atomic step, so the in-flight flag is never seen raised. In the page the order request is pending from line 42 to line 59. During that time the backdrop (line 141) can close the cart panel and the product cards can still add lines (line 121). On success `setCart([])` (line 60) then also deletes those later lines. They were never ordered, because the items were taken from the cart at the click (lines 52-56). The model does not show this loss.
- Checkout on an empty cart is refused only by the disabled button (`Storefront.PressCheckout`). The checkout handler itself would send a request with no items.

## Findings

| source | as written | input that shows it | evidently intended | confidence | as-written member | corrected member |
|---|---|---|---|---|---|---|
| src/pages/admin/TeamManagement.jsx:188-189 | the invitation date (`new Date()`) and the expiry (`Date.now() + 7 days`) come from two separate clock readings | first reading 86 399 999 ms, second 86 400 000 ms (1 ms apart across UTC midnight): date day 0, expiry day 8 | expiry exactly 7 days after the invitation date | real but rare (needs a send within a millisecond of midnight UTC); not executed | TeamManagement.AsWrittenExpiryCanBeEightDays | TeamManagement.SendInvite |

=== FILE: command_palette.dfy ===
/** The Ctrl/Cmd+K command palette: the fixed list of actions, the
    case-insensitive search over their names, the shortcut that opens and
    closes it, and what choosing an action does. */
module CommandPalette {
  import opened Seqs
  import opened Text

  datatype Action = Action(name: string, href: string)

  const Actions: seq<Action> := [
    Action("Dashboard", "/"),
    Action("Commandes", "/orders"),
    Action("Produits", "/products"),
    Action("Clients", "/customers"),
    Action("R\U{E9}ductions", "/discounts"),
    Action("Markets", "/markets"),
    Action("Analyses", "/analytics"),
    Action("Themes", "/online-store/themes"),
    Action("Pages", "/online-store/pages"),
    Action("Param\U{E8}tres", "/settings")
  ]

  datatype Palette = Palette(isOpen: bool, query: string)

  predicate NameMatches(a: Action, query: string) {
    Contains(Lower(a.name), Lower(query))
  }

  function Matching(query: string): Action -> bool {
    (a: Action) => NameMatches(a, query)
  }

  /** The actions listed for a query: those whose lower-cased name contains
      the lower-cased query, in list order. The page applies it to `Actions`. */
  function FilteredActions(actions: seq<Action>, query: string): (r: seq<Action>)
    ensures IsSublist(r, actions)
    ensures forall a :: a in r <==> a in actions && NameMatches(a, query)
    ensures forall a :: multiset(r)[a] == if NameMatches(a, query) then multiset(actions)[a] else 0
  {
    FilterIsSublist(Matching(query), actions);
    Filter(Matching(query), actions)
  }

  /** An empty query lists all ten actions. */
  lemma EmptyQueryListsAll()
    ensures FilteredActions(Actions, "") == Actions
    ensures |FilteredActions(Actions, "")| == 10
  {
    forall a | a in Actions
      ensures NameMatches(a, "")
    {
      ContainsEmpty(Lower(a.name));
    }
  }

  /** The keyboard shortcut: "k" with Ctrl or Meta flips the palette; any
      other key leaves it as it is. */
  function KeyDown(p: Palette, key: string, metaKey: bool, ctrlKey: bool): (r: Palette)
    ensures r.query == p.query
    ensures key == "k" && (metaKey || ctrlKey) ==> r.isOpen == !p.isOpen
    ensures !(key == "k" && (metaKey || ctrlKey)) ==> r == p
  {
    if key == "k" && (metaKey || ctrlKey) then p.(isOpen := !p.isOpen) else p
  }

  /** Pressing the shortcut twice gives back the palette as it was. */
  lemma ShortcutTwice(p: Palette, key: string, metaKey: bool, ctrlKey: bool)
    ensures KeyDown(KeyDown(p, key, metaKey, ctrlKey), key, metaKey, ctrlKey) == p
  {
  }

  /** Choosing an action navigates to its target, closes the palette and
      clears the query; the result is the new palette and the target. */
  function OnAction(p: Palette, href: string): (r: (Palette, string))
    ensures !r.0.isOpen && r.0.query == ""
    ensures r.1 == href
  {
    (Palette(false, ""), href)
  }

  /** After choosing an action the palette, reopened, lists every action. */
  lemma ReopenAfterActionListsAll(p: Palette, href: string)
    ensures var q := KeyDown(OnAction(p, href).0, "k", false, true);
      q.isOpen && FilteredActions(Actions, q.query) == Actions
  {
    EmptyQueryListsAll();
  }
}

=== FILE: company_layout.dfy ===
/** The company area's side navigation: which link is highlighted for the
    current path. */
module CompanyLayout {
  import opened Text

  datatype NavItem = NavItem(name: string, href: string)

  const CompanyRoot := "/company"

  const Navigation: seq<NavItem> := [
    NavItem("Dashboard", "/company"),
    NavItem("Company Profile", "/company/profile"),
    NavItem("Team", "/company/team"),
    NavItem("Analytics", "/company/analytics"),
    NavItem("Settings", "/company/settings")
  ]

  /** `isActive(href)`: the dashboard link only on the exact path, every
      other link on any path that begins with its target. */
  function IsActive(pathname: string, href: string): (r: bool)
    ensures href == CompanyRoot ==> (r <==> pathname == CompanyRoot)
    ensures href != CompanyRoot ==> (r <==> |href| <= |pathname| && pathname[..|href|] == href)
  {
    if href == CompanyRoot then pathname == CompanyRoot else StartsWith(pathname, href)
  }

  /** A link is always active on its own target path. */
  lemma ActiveOnOwnPath(href: string)
    ensures IsActive(href, href)
  {
  }

  /** An active link's target is a prefix of the path. */
  lemma ActiveIsPrefix(pathname: string, href: string)
    ensures IsActive(pathname, href) ==> StartsWith(pathname, href)
  {
  }

  /** The dashboard link is not active on any sub-page, e.g. "/company/team". */
  lemma RootInactiveOnSubpages(pathname: string)
    requires pathname != CompanyRoot
    ensures !IsActive(pathname, CompanyRoot)
    ensures !IsActive("/company/team", CompanyRoot)
  {
  }

  lemma CommonPrefix(p: string, a: string, b: string, k: int)
    requires StartsWith(p, a) && StartsWith(p, b)
    requires 0 <= k < |a| && k < |b|
    ensures a[k] == b[k]
  {
    assert a[k] == p[..|a|][k] == p[k];
    assert b[k] == p[..|b|][k] == p[k];
  }

  /** For any path at most one navigation link is highlighted. */
  lemma AtMostOneActive(pathname: string, i: int, j: int)
    requires 0 <= i < j < |Navigation|
    ensures !(IsActive(pathname, Navigation[i].href) && IsActive(pathname, Navigation[j].href))
  {
    if i == 0 {
      if IsActive(pathname, Navigation[i].href) {
        assert pathname == CompanyRoot;
      }
    } else if StartsWith(pathname, Navigation[i].href) && StartsWith(pathname, Navigation[j].href) {
      CommonPrefix(pathname, Navigation[i].href, Navigation[j].href, 9);
    }
  }
}

=== FILE: company_profile.dfy ===
/** The international settings of the company profile: the supported
    currency and language lists with their defaults. */
module CompanyProfile {
  import opened Seqs

  datatype International = International(
    defaultCurrency: string,
    supportedCurrencies: seq<string>,
    defaultLanguage: string,
    supportedLanguages: seq<string>)

  /** The settings the profile form starts with. */
  const Initial := International("USD", ["USD"], "en", ["en"])

  /** Appends `x` unless it is already listed. */
  function AddAbsent(list: seq<string>, x: string): (r: seq<string>)
    ensures x in r
    ensures x in list ==> r == list
    ensures x !in list ==> r == list + [x]
    ensures NoDups(list) ==> NoDups(r)
  {
    if x in list then list else list + [x]
  }

  /** Deletes `x` unless it is the default entry. */
  function RemoveUnlessDefault(list: seq<string>, x: string, default: string): (r: seq<string>)
    ensures x == default ==> r == list
    ensures x != default ==> x !in r
    ensures IsSublist(r, list)
    ensures forall y :: y in r <==> y in list && (y != x || x == default)
    ensures forall y :: multiset(r)[y] == if y == x && x != default then 0 else multiset(list)[y]
    ensures NoDups(list) ==> NoDups(r)
    ensures default in list ==> default in r
  {
    if x == default then
      SublistRefl(list);
      list
    else
      FilterIsSublist(Differs(x), list);
      FilterNoDups(Differs(x), list);
      Filter(Differs(x), list)
  }

  function AddCurrency(p: International, c: string): (r: International)
    ensures c in r.supportedCurrencies
    ensures c in p.supportedCurrencies ==> r == p
    ensures c !in p.supportedCurrencies ==> r.supportedCurrencies == p.supportedCurrencies + [c]
    ensures NoDups(p.supportedCurrencies) ==> NoDups(r.supportedCurrencies)
    ensures r == p.(supportedCurrencies := r.supportedCurrencies)
  {
    p.(supportedCurrencies := AddAbsent(p.supportedCurrencies, c))
  }

  function RemoveCurrency(p: International, c: string): (r: International)
    ensures c == p.defaultCurrency ==> r == p
    ensures c != p.defaultCurrency ==> c !in r.supportedCurrencies
    ensures IsSublist(r.supportedCurrencies, p.supportedCurrencies)
    ensures forall x :: x in r.supportedCurrencies <==>
      x in p.supportedCurrencies && (x != c || c == p.defaultCurrency)
    ensures forall x ::
      (multiset(r.supportedCurrencies)[x] == if x == c && c != p.defaultCurrency then 0 else multiset(p.supportedCurrencies)[x])
    ensures NoDups(p.supportedCurrencies) ==> NoDups(r.supportedCurrencies)
    ensures p.defaultCurrency in p.supportedCurrencies ==> p.defaultCurrency in r.supportedCurrencies
    ensures r == p.(supportedCurrencies := r.supportedCurrencies)
  {
    p.(supportedCurrencies := RemoveUnlessDefault(p.supportedCurrencies, c, p.defaultCurrency))
  }

  function AddLanguage(p: International, l: string): (r: International)
    ensures l in r.supportedLanguages
    ensures l in p.supportedLanguages ==> r == p
    ensures l !in p.supportedLanguages ==> r.supportedLanguages == p.supportedLanguages + [l]
    ensures NoDups(p.supportedLanguages) ==> NoDups(r.supportedLanguages)
    ensures r == p.(supportedLanguages := r.supportedLanguages)
  {
    p.(supportedLanguages := AddAbsent(p.supportedLanguages, l))
  }

  function RemoveLanguage(p: International, l: string): (r: International)
    ensures l == p.defaultLanguage ==> r == p
    ensures l != p.defaultLanguage ==> l !in r.supportedLanguages
    ensures IsSublist(r.supportedLanguages, p.supportedLanguages)
    ensures forall x :: x in r.supportedLanguages <==>
      x in p.supportedLanguages && (x != l || l == p.defaultLanguage)
    ensures forall x ::
      (multiset(r.supportedLanguages)[x] == if x == l && l != p.defaultLanguage then 0 else multiset(p.supportedLanguages)[x])
    ensures NoDups(p.supportedLanguages) ==> NoDups(r.supportedLanguages)
    ensures p.defaultLanguage in p.supportedLanguages ==> p.defaultLanguage in r.supportedLanguages
    ensures r == p.(supportedLanguages := r.supportedLanguages)
  {
    p.(supportedLanguages := RemoveUnlessDefault(p.supportedLanguages, l, p.defaultLanguage))
  }

  /** Choosing a new default currency touches nothing else, in particular
      not the supported list. */
  function SetDefaultCurrency(p: International, c: string): (r: International)
    ensures r.defaultCurrency == c
    ensures r.supportedCurrencies == p.supportedCurrencies
    ensures r.defaultLanguage == p.defaultLanguage && r.supportedLanguages == p.supportedLanguages
  {
    p.(defaultCurrency := c)
  }

  function SetDefaultLanguage(p: International, l: string): (r: International)
    ensures r.defaultLanguage == l
    ensures r.supportedLanguages == p.supportedLanguages
    ensures r.defaultCurrency == p.defaultCurrency && r.supportedCurrencies == p.supportedCurrencies
  {
    p.(defaultLanguage := l)
  }

  /** Adding a currency that was not listed, then removing it, gives back
      the original settings. */
  lemma AddThenRemoveCurrency(p: International, c: string)
    requires c !in p.supportedCurrencies && c != p.defaultCurrency
    ensures RemoveCurrency(AddCurrency(p, c), c) == p
  {
    FilterConcat(Differs(c), p.supportedCurrencies, [c]);
  }

  lemma AddThenRemoveLanguage(p: International, l: string)
    requires l !in p.supportedLanguages && l != p.defaultLanguage
    ensures RemoveLanguage(AddLanguage(p, l), l) == p
  {
    FilterConcat(Differs(l), p.supportedLanguages, [l]);
  }

  /** Adding is idempotent. */
  lemma AddCurrencyTwice(p: International, c: string)
    ensures AddCurrency(AddCurrency(p, c), c) == AddCurrency(p, c)
  {
  }

  /** The default currency need not be supported: from the initial settings,
      choosing "EUR" as default leaves "EUR" unsupported, and "USD" can then
      be removed, emptying the supported list. */
  lemma DefaultNotAlwaysSupported()
    ensures var p := SetDefaultCurrency(Initial, "EUR");
      && p.defaultCurrency !in p.supportedCurrencies
      && RemoveCurrency(p, "USD").supportedCurrencies == []
  {
    assert Filter(Differs("USD"), ["USD"]) == [];
  }
}

=== FILE: customers.dfy ===
/** The customer list's summary counters. */
module Customers {
  import opened Wrappers
  import opened Seqs

  /** A customer with the number of orders the server counted, if it sent one. */
  datatype Customer = Customer(id: string, email: string, orderCount: Option<nat>)

  /** A customer's orders, a missing count reading as zero. */
  function OrdersOf(c: Customer): (n: nat)
    ensures c.orderCount.None? ==> n == 0
    ensures c.orderCount.Some? ==> n == c.orderCount.value
  {
    c.orderCount.GetOr(0)
  }

  function OrderCounts(cs: seq<Customer>): (r: seq<int>)
    ensures |r| == |cs|
    ensures forall i :: 0 <= i < |cs| ==> r[i] == OrdersOf(cs[i])
  {
    seq(|cs|, i requires 0 <= i < |cs| => OrdersOf(cs[i]))
  }

  /** "Total Commandes": all customers' orders summed. */
  function TotalOrders(cs: seq<Customer>): (n: int)
    ensures 0 <= n
    ensures cs == [] ==> n == 0
  {
    Sum(OrderCounts(cs))
  }

  function HasOrders(): Customer -> bool {
    (c: Customer) => OrdersOf(c) > 0
  }

  /** "Source Active": the customers with at least one order. */
  function ActiveCustomers(cs: seq<Customer>): (n: nat)
    ensures n <= |cs|
    ensures (forall c :: c in cs ==> OrdersOf(c) == 0) ==> n == 0
  {
    |Filter(HasOrders(), cs)|
  }

  lemma TotalOrdersCons(c: Customer, cs: seq<Customer>)
    ensures TotalOrders([c] + cs) == OrdersOf(c) + TotalOrders(cs)
  {
    assert OrderCounts([c] + cs) == [OrdersOf(c)] + OrderCounts(cs);
    SumAppend([OrdersOf(c)], OrderCounts(cs));
    SumSingleton(OrdersOf(c));
  }

  lemma ActiveCons(c: Customer, cs: seq<Customer>)
    ensures ActiveCustomers([c] + cs) == (if OrdersOf(c) > 0 then 1 else 0) + ActiveCustomers(cs)
  {
    FilterConcat(HasOrders(), [c], cs);
  }

  /** Each active customer has at least one order, so there are no more
      active customers than orders. */
  lemma {:induction false} ActiveAtMostOrders(cs: seq<Customer>)
    ensures ActiveCustomers(cs) <= TotalOrders(cs)
  {
    if cs != [] {
      var h, t := cs[0], cs[1..];
      ActiveAtMostOrders(t);
      assert cs == [h] + t;
      TotalOrdersCons(h, t);
      ActiveCons(h, t);
    }
  }

  /** The average-order-frequency card: a ratio only when the server's
      customer total is positive, otherwise the text "0". */
  datatype Frequency = ZeroText | Ratio(orders: int, customers: int)

  function AverageFrequency(totalOrders: int, metaTotal: int): (r: Frequency)
    ensures r.Ratio? <==> metaTotal > 0
    ensures r.Ratio? ==> r.customers > 0 && r.orders == totalOrders && r.customers == metaTotal
  {
    if metaTotal > 0 then Ratio(totalOrders, metaTotal) else ZeroText
  }

  /** The card as the page fills it when the server's total is the number of
      customers listed: a ratio exactly when there is a customer, whose
      numerator is never negative and never below the number of active
      customers (so the average is at least the active share). */
  lemma FrequencyOfListedCustomers(cs: seq<Customer>)
    ensures var f := AverageFrequency(TotalOrders(cs), |cs|);
      && (f.Ratio? <==> cs != [])
      && (f.Ratio? ==> 0 <= f.orders && ActiveCustomers(cs) <= f.orders && f.customers == |cs|)
  {
    ActiveAtMostOrders(cs);
  }
}

=== FILE: product_detail.dfy ===
/** The product editor's list operations: variants added, edited and
    removed by position, and tags added from the text field and removed. */
module ProductDetail {
  import opened Wrappers
  import opened Seqs
  import opened Text

  /** A variant row of the editor. The price is in cents. */
  datatype EditorVariant = EditorVariant(title: string, price: int, inventory: int, sku: string)

  /** The row a click on "add variant" creates. */
  const BlankVariant := EditorVariant("", 0, 0, "")

  /** One edited field of a variant row, with its new value. */
  datatype FieldValue = Title(title: string) | Price(price: int) | Inventory(inventory: int) | Sku(sku: string)

  /** Writing to a row that does not exist throws. */
  datatype EditorError = NoVariantAt(index: int)

  /** `v` with just the one field replaced. */
  function SetField(v: EditorVariant, f: FieldValue): (r: EditorVariant)
    ensures r.title == (if f.Title? then f.title else v.title)
    ensures r.price == (if f.Price? then f.price else v.price)
    ensures r.inventory == (if f.Inventory? then f.inventory else v.inventory)
    ensures r.sku == (if f.Sku? then f.sku else v.sku)
  {
    match f
    case Title(t) => v.(title := t)
    case Price(p) => v.(price := p)
    case Inventory(n) => v.(inventory := n)
    case Sku(s) => v.(sku := s)
  }

  /** `addVariant`: one blank row at the end; existing rows untouched. */
  function AddVariant(vs: seq<EditorVariant>): (r: seq<EditorVariant>)
    ensures |r| == |vs| + 1
    ensures r[..|vs|] == vs
    ensures r[|vs|] == BlankVariant
  {
    vs + [BlankVariant]
  }

  /** `updateVariant`: row `i` gets the new field value and every other row
      stays as it was; an index outside the list is an error. */
  function UpdateVariant(vs: seq<EditorVariant>, i: int, f: FieldValue): (r: Result<seq<EditorVariant>, EditorError>)
    ensures r.Err? <==> !(0 <= i < |vs|)
    ensures r.Ok? ==> |r.value| == |vs|
    ensures r.Ok? ==> r.value[i] == SetField(vs[i], f)
    ensures r.Ok? ==> forall j :: 0 <= j < |vs| && j != i ==> r.value[j] == vs[j]
  {
    if 0 <= i < |vs| then Ok(vs[i := SetField(vs[i], f)]) else Err(NoVariantAt(i))
  }

  /** Editing the same field of the same row twice keeps only the last value. */
  lemma UpdateTwiceLastWins(vs: seq<EditorVariant>, i: int, f: FieldValue, g: FieldValue)
    requires 0 <= i < |vs|
    requires f.Title? == g.Title? && f.Price? == g.Price? && f.Inventory? == g.Inventory?
    ensures UpdateVariant(UpdateVariant(vs, i, f).value, i, g) == UpdateVariant(vs, i, g)
  {
    assert SetField(SetField(vs[i], f), g) == SetField(vs[i], g);
    assert vs[i := SetField(vs[i], f)][i := SetField(vs[i], g)] == vs[i := SetField(vs[i], g)];
  }

  /** `removeVariant`: keeps every row whose position differs from `i`; an
      index outside the list removes nothing. */
  function RemoveVariant(vs: seq<EditorVariant>, i: int): (r: seq<EditorVariant>)
    ensures |r| == if 0 <= i < |vs| then |vs| - 1 else |vs|
    ensures forall j :: 0 <= j < |r| && j < i ==> r[j] == vs[j]
    ensures 0 <= i ==> forall j :: i <= j < |r| ==> r[j] == vs[j + 1]
    ensures !(0 <= i < |vs|) ==> r == vs
  {
    if vs == [] then []
    else (if i == 0 then [] else [vs[0]]) + RemoveVariant(vs[1..], i - 1)
  }

  /** Removing by position is the same as cutting the row out of the list. */
  lemma RemoveVariantIsCut(vs: seq<EditorVariant>, i: int)
    requires 0 <= i < |vs|
    ensures RemoveVariant(vs, i) == vs[..i] + vs[i + 1..]
  {
    var r := RemoveVariant(vs, i);
    var c := vs[..i] + vs[i + 1..];
    assert |r| == |c|;
    forall j | 0 <= j < |r|
      ensures r[j] == c[j]
    {
      if j < i {
        assert c[j] == vs[j];
      } else {
        assert c[j] == vs[j + 1];
      }
    }
  }

  /** Removing the row just added gives back the previous rows. */
  lemma AddThenRemoveVariant(vs: seq<EditorVariant>)
    ensures RemoveVariant(AddVariant(vs), |vs|) == vs
  {
    RemoveVariantIsCut(AddVariant(vs), |vs|);
    assert AddVariant(vs)[..|vs|] == vs;
  }

  // ---------------------------------------------------------------------
  // Tags

  datatype TagEditor = TagEditor(tags: seq<string>, input: string)

  /** `handleAddTag`: only the Enter key with a non-blank field does
      anything. Then the trimmed text is appended unless already present, and
      the field is cleared in both cases. */
  function HandleTagKey(st: TagEditor, key: string): (r: TagEditor)
    ensures key != "Enter" || Trim(st.input) == [] ==> r == st
    ensures key == "Enter" && Trim(st.input) != [] ==>
      && r.input == ""
      && Trim(st.input) in r.tags
      && (Trim(st.input) in st.tags ==> r.tags == st.tags)
      && (Trim(st.input) !in st.tags ==> r.tags == st.tags + [Trim(st.input)])
    ensures NoDups(st.tags) ==> NoDups(r.tags)
  {
    if key == "Enter" && |Trim(st.input)| > 0 then
      var t := Trim(st.input);
      TagEditor(if t in st.tags then st.tags else st.tags + [t], "")
    else st
  }

  /** `removeTag`: deletes the tag and keeps the others in order. */
  function RemoveTag(tags: seq<string>, tag: string): (r: seq<string>)
    ensures tag !in r
    ensures IsSublist(r, tags)
    ensures forall t :: t in r <==> t in tags && t != tag
    ensures forall t :: multiset(r)[t] == if t == tag then 0 else multiset(tags)[t]
    ensures NoDups(tags) ==> NoDups(r)
  {
    FilterIsSublist(Differs(tag), tags);
    FilterNoDups(Differs(tag), tags);
    Filter(Differs(tag), tags)
  }

  /** Every tag is non-empty and has no surrounding white space. */
  ghost predicate TagsClean(tags: seq<string>) {
    forall t :: t in tags ==> t != [] && Trim(t) == t
  }

  /** Keys typed into the tag field never add an untrimmed or empty tag. */
  lemma HandleTagKeyKeepsTagsClean(st: TagEditor, key: string)
    requires TagsClean(st.tags)
    ensures TagsClean(HandleTagKey(st, key).tags)
  {
    TrimIdempotent(st.input);
  }

  /** A fresh tag entered and then removed leaves the tags as they were. */
  lemma AddThenRemoveTag(st: TagEditor)
    requires Trim(st.input) != [] && Trim(st.input) !in st.tags
    ensures RemoveTag(HandleTagKey(st, "Enter").tags, Trim(st.input)) == st.tags
  {
    var t := Trim(st.input);
    FilterConcat(Differs(t), st.tags, [t]);
  }
}

=== FILE: products_catalog.dfy ===
/** The product catalogue page: normalising the list response, the three
    counters, and the new-product form. */
module ProductsCatalog {
  import opened Wrappers
  import opened Seqs

  datatype CatalogItem = CatalogItem(name: string, status: string, inventory: Option<int>)

  /** The `data` field of the list response: missing or any other falsy
      value, an array of products, or some other (non-array) value. */
  datatype DataField = Missing | Items(items: seq<CatalogItem>) | NotAnArray

  datatype Meta = Meta(total: int)

  /** The list request's reply: the response body's `data` and `meta`, or a
      failed request. */
  datatype ListReply = Listed(data: DataField, meta: Option<Meta>) | ListFailed

  datatype CatalogState = CatalogState(products: seq<CatalogItem>, meta: Meta)

  /** `fetchProducts`: anything but an array yields no products; a missing
      `meta` defaults to a total equal to the number of products; a failed
      request empties the list and keeps the old `meta`. */
  function ApplyListReply(st: CatalogState, reply: ListReply): (r: CatalogState)
    ensures reply.ListFailed? ==> r.products == [] && r.meta == st.meta
    ensures reply.Listed? && !reply.data.Items? ==> r.products == []
    ensures reply.Listed? && reply.data.Items? ==> r.products == reply.data.items
    ensures reply.Listed? && reply.meta.Some? ==> r.meta == reply.meta.value
    ensures reply.Listed? && reply.meta.None? ==> r.meta.total == |r.products|
  {
    match reply
    case ListFailed => st.(products := [])
    case Listed(data, meta) =>
      var list := if data.Items? then data.items else [];
      var defaultTotal := if data.NotAnArray? then 0 else |list|;
      CatalogState(list, meta.GetOr(Meta(defaultTotal)))
  }

  /** A successful load does not depend on what was shown before: the
      reply alone decides the new list and total. */
  lemma ListedReplyIgnoresPriorState(st1: CatalogState, st2: CatalogState, reply: ListReply)
    requires reply.Listed?
    ensures ApplyListReply(st1, reply) == ApplyListReply(st2, reply)
  {
  }

  /** A failed load empties the list but keeps the total, so a reload that
      then succeeds ends exactly where it would have without the failure. */
  lemma FailedThenListed(st: CatalogState, reply: ListReply)
    ensures ApplyListReply(st, ListFailed).meta == st.meta
    ensures reply.Listed? ==>
      ApplyListReply(ApplyListReply(st, ListFailed), reply) == ApplyListReply(st, reply)
  {
  }

  function HasStatus(status: string): CatalogItem -> bool {
    (p: CatalogItem) => p.status == status
  }

  /** Out of stock: a known inventory of zero or less (an unknown inventory
      compares false). */
  predicate OutOfStock(p: CatalogItem) {
    p.inventory.Some? && p.inventory.value <= 0
  }

  function IsOutOfStock(): CatalogItem -> bool {
    (p: CatalogItem) => OutOfStock(p)
  }

  datatype Stats = Stats(active: nat, outOfStock: nat, drafts: nat)

  /** The "Articles actifs", "En rupture" and "Brouillons" counters. */
  function ComputeStats(ps: seq<CatalogItem>): (r: Stats)
    ensures r.active <= |ps| && r.outOfStock <= |ps| && r.drafts <= |ps|
    ensures r.active + r.drafts <= |ps|
    ensures (forall p :: p in ps ==> p.status != "active") ==> r.active == 0
    ensures (forall p :: p in ps ==> p.inventory.None?) ==> r.outOfStock == 0
  {
    FilterDisjointLength(HasStatus("active"), HasStatus("draft"), ps);
    Stats(|Filter(HasStatus("active"), ps)|, |Filter(IsOutOfStock(), ps)|, |Filter(HasStatus("draft"), ps)|)
  }

  /** The counters change by at most one when one product is added, and by
      exactly the product's own classification. */
  lemma StatsAppend(ps: seq<CatalogItem>, p: CatalogItem)
    ensures var a, b := ComputeStats(ps), ComputeStats(ps + [p]);
      && b.active == a.active + (if p.status == "active" then 1 else 0)
      && b.outOfStock == a.outOfStock + (if OutOfStock(p) then 1 else 0)
      && b.drafts == a.drafts + (if p.status == "draft" then 1 else 0)
  {
    FilterConcat(HasStatus("active"), ps, [p]);
    FilterConcat(IsOutOfStock(), ps, [p]);
    FilterConcat(HasStatus("draft"), ps, [p]);
  }

  /** The new-product form; price and inventory are still text here. */
  datatype NewProductForm = NewProductForm(
    name: string,
    description: string,
    price: string,
    status: string,
    inventory: string,
    category: string)

  const BlankForm := NewProductForm("", "", "", "draft", "0", "")

  /** What one submission did: the form handed to the product service
      (before its price and inventory are parsed to numbers), and what
      became of the dialog. */
  datatype CreateStep = CreateStep(
    submitted: NewProductForm,
    form: NewProductForm,
    showModal: bool,
    refetched: bool,
    alerted: bool)

  /** `handleCreate` with the server's answer as input. The form as typed is
      what gets submitted (the service receives it with price and inventory
      parsed); success closes the dialog, reloads the list and resets the
      form; failure alerts and keeps everything the user typed. */
  function HandleCreate(form: NewProductForm, showModal: bool, created: bool): (r: CreateStep)
    ensures r.submitted == form
    ensures created ==> r.form == BlankForm && !r.showModal && r.refetched && !r.alerted
    ensures !created ==> r.form == form && r.showModal == showModal && !r.refetched && r.alerted
  {
    if created then CreateStep(form, BlankForm, false, true, false)
    else CreateStep(form, form, showModal, false, true)
  }

  /** A failed submission loses nothing the user typed: submitting again
      from the dialog it leaves behind sends the very same form, whatever
      the server answers this time. */
  lemma RetryAfterFailedCreate(form: NewProductForm, showModal: bool, created: bool)
    ensures var failed := HandleCreate(form, showModal, false);
      var retry := HandleCreate(failed.form, failed.showModal, created);
      && retry.submitted == failed.submitted
      && retry == HandleCreate(form, showModal, created)
  {
  }

  /** After a success, a submission made without editing submits the blank
      form: a draft with inventory "0", and a different form from the one
      just created unless that one was blank too. */
  lemma CreateResetsForm(form: NewProductForm, showModal: bool, created: bool)
    ensures var done := HandleCreate(form, showModal, true);
      var next := HandleCreate(done.form, done.showModal, created);
      && next.submitted == BlankForm
      && next.submitted.status == "draft" && next.submitted.inventory == "0"
      && (form != BlankForm ==> next.submitted != done.submitted)
  {
  }
}

=== FILE: products_overview.dfy ===
/** The product overview table: stock per row, total stock, and the active
    and draft counters. */
module ProductsOverview {
  import opened Seqs

  datatype StockVariant = StockVariant(title: string, inventory: int)

  datatype ListedProduct = ListedProduct(title: string, status: string, vendor: string, variants: seq<StockVariant>)

  function Inventories(vs: seq<StockVariant>): (r: seq<int>)
    ensures |r| == |vs|
    ensures forall i :: 0 <= i < |vs| ==> r[i] == vs[i].inventory
  {
    seq(|vs|, i requires 0 <= i < |vs| => vs[i].inventory)
  }

  /** The stock shown in a product's row: its variants' inventories summed. */
  function RowInventory(p: ListedProduct): (n: int)
    ensures p.variants == [] ==> n == 0
    ensures (forall i :: 0 <= i < |p.variants| ==> 0 <= p.variants[i].inventory) ==> 0 <= n
  {
    Sum(Inventories(p.variants))
  }

  /** The row values of the table, in order. */
  function RowValues(ps: seq<ListedProduct>): (r: seq<int>)
    ensures |r| == |ps|
    ensures forall i :: 0 <= i < |ps| ==> r[i] == RowInventory(ps[i])
  {
    seq(|ps|, i requires 0 <= i < |ps| => RowInventory(ps[i]))
  }

  /** Every variant inventory of every product, product by product. */
  function AllInventories(ps: seq<ListedProduct>): seq<int> {
    if ps == [] then [] else Inventories(ps[0].variants) + AllInventories(ps[1..])
  }

  /** `totalInventory`, as the nested `reduce` computes it: the outer loop
      over products, the inner loop over each product's variants. */
  method TotalInventory(ps: seq<ListedProduct>) returns (acc: int)
    ensures acc == Sum(RowValues(ps))
    ensures acc == Sum(AllInventories(ps))
  {
    acc := 0;
    var i := 0;
    while i < |ps|
      invariant 0 <= i <= |ps|
      invariant acc == Sum(RowValues(ps[..i]))
    {
      var vs := ps[i].variants;
      var s := 0;
      var k := 0;
      while k < |vs|
        invariant 0 <= k <= |vs|
        invariant s == Sum(Inventories(vs[..k]))
      {
        assert Inventories(vs[..k + 1]) == Inventories(vs[..k]) + [vs[k].inventory];
        SumSnoc(Inventories(vs[..k]), vs[k].inventory);
        s := s + vs[k].inventory;
        k := k + 1;
      }
      assert vs[..k] == vs;
      assert RowValues(ps[..i + 1]) == RowValues(ps[..i]) + [RowInventory(ps[i])];
      SumSnoc(RowValues(ps[..i]), RowInventory(ps[i]));
      acc := acc + s;
      i := i + 1;
    }
    assert ps[..i] == ps;
    RowsSumAll(ps);
  }

  /** Summing the rows equals summing every variant directly. */
  lemma {:induction false} RowsSumAll(ps: seq<ListedProduct>)
    ensures Sum(RowValues(ps)) == Sum(AllInventories(ps))
  {
    if ps != [] {
      RowsSumAll(ps[1..]);
      assert RowValues(ps) == [RowInventory(ps[0])] + RowValues(ps[1..]);
      SumAppend([RowInventory(ps[0])], RowValues(ps[1..]));
      SumSingleton(RowInventory(ps[0]));
      SumAppend(Inventories(ps[0].variants), AllInventories(ps[1..]));
    }
  }

  function HasStatus(status: string): ListedProduct -> bool {
    (p: ListedProduct) => p.status == status
  }

  /** The "Actifs" and "Brouillons" counters: the products with the given
      status. */
  function StatusCount(ps: seq<ListedProduct>, status: string): (n: nat)
    ensures n <= |ps|
    ensures (forall p :: p in ps ==> p.status == status) ==> n == |ps|
    ensures (forall p :: p in ps ==> p.status != status) ==> n == 0
    ensures n == |ps| ==> forall p :: p in ps ==> p.status == status
  {
    FilterFullLength(HasStatus(status), ps);
    |Filter(HasStatus(status), ps)|
  }

  /** No product is counted under two different statuses, so the active
      and draft counters never add up to more than the product count. */
  lemma CountersBounded(ps: seq<ListedProduct>, s1: string, s2: string)
    requires s1 != s2
    ensures StatusCount(ps, s1) + StatusCount(ps, s2) <= |ps|
  {
    FilterDisjointLength(HasStatus(s1), HasStatus(s2), ps);
  }

  /** A product added to the list raises its own status's counter by one
      and leaves every other counter as it was. */
  lemma StatusCountAppend(ps: seq<ListedProduct>, p: ListedProduct, status: string)
    ensures StatusCount(ps + [p], status) == StatusCount(ps, status) + (if p.status == status then 1 else 0)
  {
    FilterConcat(HasStatus(status), ps, [p]);
  }
}

=== FILE: route_guards.dfy ===
/** The two route guards. Each decides, from the two browser-storage items
    and the parsed stored user, whether to render the protected page or to
    redirect. Storage and the JSON parser are inputs. */
module RouteGuards {
  import opened Wrappers

  /** What parsing the stored user produced: a parse error, the JSON value
      `null` (reading its role throws), or a value whose `role` property is
      a string or is missing. */
  datatype StoredUser = Unparsable | JsonNull | Parsed(role: Option<string>)

  datatype Decision = Granted | Redirect(path: string)

  const LoginPath := "/login"
  const StorePath := "/store"

  /** A storage item counts as present when it exists and is not the empty
      string (the guards test it for truthiness). */
  predicate Present(item: Option<string>) {
    item.Some? && item.value != ""
  }

  predicate IsRole(user: StoredUser, role: string) {
    user.Parsed? && user.role == Some(role)
  }

  /** The seller guard: sellers and admins get in, other signed-in users go
      to the shop, everybody else to the login page. */
  function SellerRoute(token: Option<string>, userJson: Option<string>, user: StoredUser): (d: Decision)
    ensures !Present(token) || !Present(userJson) ==> d == Redirect(LoginPath)
    ensures user.Unparsable? || user.JsonNull? ==> d == Redirect(LoginPath)
    ensures d == Granted <==>
      Present(token) && Present(userJson) && (IsRole(user, "SELLER") || IsRole(user, "ADMIN"))
    ensures d == Redirect(StorePath) <==>
      Present(token) && Present(userJson) && user.Parsed? && !IsRole(user, "SELLER") && !IsRole(user, "ADMIN")
    ensures d.Redirect? ==> d.path == LoginPath || d.path == StorePath
  {
    if !Present(token) || !Present(userJson) then Redirect(LoginPath)
    else
      match user
      case Unparsable => Redirect(LoginPath)
      case JsonNull => Redirect(LoginPath)
      case Parsed(role) =>
        if role != Some("SELLER") && role != Some("ADMIN") then Redirect(StorePath) else Granted
  }

  /** The admin guard: only admins get in; everyone else, sellers included,
      goes to the login page. */
  function ProtectedRoute(token: Option<string>, userJson: Option<string>, user: StoredUser): (d: Decision)
    ensures d == Granted <==> Present(token) && Present(userJson) && IsRole(user, "ADMIN")
    ensures d != Granted ==> d == Redirect(LoginPath)
  {
    if !Present(token) || !Present(userJson) then Redirect(LoginPath)
    else
      match user
      case Unparsable => Redirect(LoginPath)
      case JsonNull => Redirect(LoginPath)
      case Parsed(role) =>
        if role != Some("ADMIN") then Redirect(LoginPath) else Granted
  }

  /** Everyone the admin guard lets in, the seller guard lets in too. */
  lemma AdminAccessImpliesSellerAccess(token: Option<string>, userJson: Option<string>, user: StoredUser)
    ensures ProtectedRoute(token, userJson, user) == Granted ==> SellerRoute(token, userJson, user) == Granted
  {
  }

  /** The inclusion is strict: a seller passes the seller guard only. */
  lemma SellerIsNotAdmin()
    ensures var token, json, user := Some("t"), Some("{\"role\":\"SELLER\"}"), Parsed(Some("SELLER"));
      SellerRoute(token, json, user) == Granted && ProtectedRoute(token, json, user) == Redirect(LoginPath)
  {
  }
}

=== FILE: seqs.dfy ===
/** Generic sequence facts: the order-preserving filter that JavaScript's
    `Array.prototype.filter` performs, integer sums (`reduce` with `+`), and
    duplicate-freedom. */
module Seqs {

  /** `a` is an order-preserving sublist of `b`: `a` is obtained from `b` by
      deleting elements, never by reordering or inserting them. */
  predicate IsSublist<T(==)>(a: seq<T>, b: seq<T>)
    decreases |b|
  {
    if a == [] then true
    else if b == [] then false
    else (a[0] == b[0] && IsSublist(a[1..], b[1..])) || IsSublist(a, b[1..])
  }

  /** No value occurs twice. */
  predicate NoDups<T(==)>(s: seq<T>) {
    forall i, j | 0 <= i < j < |s| :: s[i] != s[j]
  }

  /** The elements of `s` that satisfy `p`, in their original order, each as
      often as it occurs in `s`. */
  function Filter<T(==,!new)>(p: T -> bool, s: seq<T>): (r: seq<T>)
    ensures |r| <= |s|
    ensures forall x :: x in r <==> x in s && p(x)
    ensures forall x :: multiset(r)[x] == if p(x) then multiset(s)[x] else 0
    ensures (forall x :: x in s ==> p(x)) ==> r == s
    ensures (forall x :: x in s ==> !p(x)) ==> r == []
  {
    if s == [] then []
    else
      assert s == [s[0]] + s[1..];
      (if p(s[0]) then [s[0]] else []) + Filter(p, s[1..])
  }

  lemma {:induction false} FilterIsSublist<T(!new)>(p: T -> bool, s: seq<T>)
    ensures IsSublist(Filter(p, s), s)
  {
    if s != [] {
      FilterIsSublist(p, s[1..]);
      var rest := Filter(p, s[1..]);
      if p(s[0]) {
        assert Filter(p, s) == [s[0]] + rest;
        assert ([s[0]] + rest)[1..] == rest;
      } else {
        assert Filter(p, s) == rest;
        SublistDropHead(rest, s);
      }
    }
  }

  lemma {:induction false} SublistRefl<T>(s: seq<T>)
    ensures IsSublist(s, s)
  {
    if s != [] {
      SublistRefl(s[1..]);
    }
  }

  /** Extending the longer list at the front keeps the sublist relation. */
  lemma SublistDropHead<T>(a: seq<T>, b: seq<T>)
    requires b != []
    requires IsSublist(a, b[1..])
    ensures IsSublist(a, b)
  {
  }

  lemma {:induction false} SublistMembers<T>(a: seq<T>, b: seq<T>)
    requires IsSublist(a, b)
    ensures forall x :: x in a ==> x in b
    decreases |b|
  {
    if a != [] {
      if a[0] == b[0] && IsSublist(a[1..], b[1..]) {
        SublistMembers(a[1..], b[1..]);
        assert a == [a[0]] + a[1..];
        assert b == [b[0]] + b[1..];
      } else {
        SublistMembers(a, b[1..]);
        assert b == [b[0]] + b[1..];
      }
    }
  }

  lemma NoDupsCons<T>(x: T, s: seq<T>)
    requires x !in s && NoDups(s)
    ensures NoDups([x] + s)
  {
    var t := [x] + s;
    forall i, j | 0 <= i < j < |t|
      ensures t[i] != t[j]
    {
      assert t[j] == s[j - 1];
      if i > 0 {
        assert t[i] == s[i - 1];
      }
    }
  }

  /** Deleting elements cannot create a duplicate. */
  lemma {:induction false} SublistNoDups<T>(a: seq<T>, b: seq<T>)
    requires IsSublist(a, b) && NoDups(b)
    ensures NoDups(a)
    decreases |b|
  {
    if a != [] {
      assert NoDups(b[1..]) by {
        forall i, j | 0 <= i < j < |b[1..]|
          ensures b[1..][i] != b[1..][j]
        {
          assert b[1..][i] == b[i + 1] && b[1..][j] == b[j + 1];
        }
      }
      if a[0] == b[0] && IsSublist(a[1..], b[1..]) {
        SublistNoDups(a[1..], b[1..]);
        SublistMembers(a[1..], b[1..]);
        assert b[0] !in b[1..] by {
          forall k | 0 <= k < |b[1..]|
            ensures b[1..][k] != b[0]
          {
            assert b[1..][k] == b[k + 1];
          }
        }
        NoDupsCons(a[0], a[1..]);
        assert a == [a[0]] + a[1..];
      } else {
        SublistNoDups(a, b[1..]);
      }
    }
  }

  /** Filtering a duplicate-free list leaves it duplicate-free. */
  lemma FilterNoDups<T(!new)>(p: T -> bool, s: seq<T>)
    ensures NoDups(s) ==> NoDups(Filter(p, s))
  {
    if NoDups(s) {
      FilterIsSublist(p, s);
      SublistNoDups(Filter(p, s), s);
    }
  }

  /** The position of the first element of `s` satisfying `p`, or `|s|`
      when there is none (the search `Array.prototype.find` does). */
  function FirstIndex<T>(p: T -> bool, s: seq<T>): (i: nat)
    ensures i <= |s|
    ensures forall j :: 0 <= j < i ==> !p(s[j])
    ensures i < |s| ==> p(s[i])
  {
    if s == [] || p(s[0]) then 0 else 1 + FirstIndex(p, s[1..])
  }

  /** The predicate "differs from `x`", used to delete every copy of `x`. */
  function Differs<T(==)>(x: T): T -> bool {
    (y: T) => y != x
  }

  /** A filter that keeps as many elements as it was given keeps them all. */
  lemma {:induction false} FilterFullLength<T(!new)>(p: T -> bool, s: seq<T>)
    ensures |Filter(p, s)| == |s| ==> Filter(p, s) == s
  {
    if s != [] {
      FilterCons(p, s);
      FilterFullLength(p, s[1..]);
    }
  }

  /** One step of the filter: the first element is kept exactly when it
      satisfies `p`. */
  lemma FilterCons<T(!new)>(p: T -> bool, s: seq<T>)
    requires s != []
    ensures Filter(p, s) == (if p(s[0]) then [s[0]] else []) + Filter(p, s[1..])
  {
  }

  /** `Filter` without its contract. Proofs that juggle several filtered
      sequences at once go through it, so that the contract's quantifiers
      are not instantiated for every one of them. */
  function Keep<T>(p: T -> bool, s: seq<T>): seq<T> {
    if s == [] then [] else (if p(s[0]) then [s[0]] else []) + Keep(p, s[1..])
  }

  lemma {:induction false} FilterIsKeep<T(!new)>(p: T -> bool, s: seq<T>)
    ensures Filter(p, s) == Keep(p, s)
  {
    if s != [] {
      FilterIsKeep(p, s[1..]);
    }
  }

  lemma {:induction false} KeepConcat<T>(p: T -> bool, a: seq<T>, b: seq<T>)
    ensures Keep(p, a + b) == Keep(p, a) + Keep(p, b)
  {
    if a == [] {
      assert a + b == b;
    } else {
      KeepConcat(p, a[1..], b);
      assert (a + b)[0] == a[0];
      assert (a + b)[1..] == a[1..] + b;
    }
  }

  /** Filtering distributes over concatenation. */
  lemma FilterConcat<T(!new)>(p: T -> bool, a: seq<T>, b: seq<T>)
    ensures Filter(p, a + b) == Filter(p, a) + Filter(p, b)
  {
    FilterIsKeep(p, a + b);
    FilterIsKeep(p, a);
    FilterIsKeep(p, b);
    KeepConcat(p, a, b);
  }

  /** Two filters whose predicates never hold together keep at most every
      element once between them. */
  lemma {:induction false} FilterDisjointLength<T(!new)>(p: T -> bool, q: T -> bool, s: seq<T>)
    requires forall x :: x in s ==> !(p(x) && q(x))
    ensures |Filter(p, s)| + |Filter(q, s)| <= |s|
  {
    if s != [] {
      FilterDisjointLength(p, q, s[1..]);
    }
  }

  /** A filter and the filter of the negated predicate partition the list. */
  lemma {:induction false} FilterComplementLength<T(!new)>(p: T -> bool, q: T -> bool, s: seq<T>)
    requires forall x :: x in s ==> (q(x) <==> !p(x))
    ensures |Filter(p, s)| + |Filter(q, s)| == |s|
  {
    if s != [] {
      FilterComplementLength(p, q, s[1..]);
    }
  }

  /** The sum of a list of integers, as `reduce((a, x) => a + x, 0)`. */
  function Sum(xs: seq<int>): (r: int)
    ensures (forall i :: 0 <= i < |xs| ==> 0 <= xs[i]) ==> 0 <= r
  {
    if xs == [] then 0 else xs[0] + Sum(xs[1..])
  }

  lemma {:induction false} SumAppend(a: seq<int>, b: seq<int>)
    ensures Sum(a + b) == Sum(a) + Sum(b)
  {
    if a == [] {
      assert a + b == b;
    } else {
      SumAppend(a[1..], b);
      assert (a + b)[1..] == a[1..] + b;
    }
  }

  lemma SumSingleton(x: int)
    ensures Sum([x]) == x
  {
    assert [x][1..] == [];
  }

  /** Summing from the left, one element at a time, as a `reduce` loop does. */
  lemma SumSnoc(a: seq<int>, x: int)
    ensures Sum(a + [x]) == Sum(a) + x
  {
    SumAppend(a, [x]);
  }
}

=== FILE: storefront.dfy ===
/** The storefront page: the catalogue of active products, the cart, its
    total, and the checkout that turns the cart into an order request.
    Prices are integer cents; cart-line ids and server replies are inputs. */
module Storefront {
  import opened Wrappers
  import opened Seqs

  datatype Variant = Variant(id: string, price: int, inventory: int)

  datatype Product = Product(
    id: string,
    storeId: string,
    name: string,
    description: string,
    status: string,
    variants: seq<Variant>)

  /** One cart entry: a snapshot of the product and the chosen variant, with
      a locally generated id. Quantity is always one. */
  datatype CartLine = CartLine(product: Product, variant: Variant, cartId: int)

  datatype CustomerInfo = CustomerInfo(email: string, firstName: string, lastName: string)

  datatype OrderItem = OrderItem(variantId: string, quantity: int, price: int)

  datatype OrderRequest = OrderRequest(
    storeId: string,
    customerInfo: CustomerInfo,
    items: seq<OrderItem>,
    total: int)

  /** The page state that the cart and checkout touch. */
  datatype StoreState = StoreState(
    products: seq<Product>,
    cart: seq<CartLine>,
    isCartOpen: bool,
    isCheckingOut: bool,
    orderDone: bool)

  /** What the product list request or the order creation request returned. */
  datatype Reply<T> = Replied(data: T) | Failed

  /** The state the page mounts with. */
  const Initial := StoreState([], [], false, false, false)

  /** The hard-coded customer every storefront order is placed for. */
  const TestCustomer := CustomerInfo("client@test.com", "Client", "Test")

  // ---------------------------------------------------------------------
  // Catalogue

  /** Only products whose status is "active" are shown, in fetched order. */
  function ActiveProducts(fetched: seq<Product>): (r: seq<Product>)
    ensures IsSublist(r, fetched)
    ensures forall p :: p in r <==> p in fetched && p.status == "active"
    ensures forall p :: multiset(r)[p] == if p.status == "active" then multiset(fetched)[p] else 0
  {
    FilterIsSublist((p: Product) => p.status == "active", fetched);
    Filter((p: Product) => p.status == "active", fetched)
  }

  /** Loading the catalogue: a reply replaces the product list by its active
      products; a failed request leaves the page as it was. */
  function LoadCatalog(s: StoreState, reply: Reply<seq<Product>>): (r: StoreState)
    ensures reply.Replied? ==> r == s.(products := ActiveProducts(reply.data))
    ensures reply.Failed? ==> r == s
    ensures forall p :: p in r.products ==> p in s.products || p.status == "active"
  {
    match reply
    case Replied(data) => s.(products := ActiveProducts(data))
    case Failed => s
  }

  // ---------------------------------------------------------------------
  // Cart

  /** Appends one line for `variant` of `product`; never merges with an
      existing line for the same variant. Opens the cart panel. */
  function AddToCart(s: StoreState, product: Product, variant: Variant, cartId: int): (r: StoreState)
    ensures |r.cart| == |s.cart| + 1
    ensures r.cart[..|s.cart|] == s.cart
    ensures r.cart[|s.cart|] == CartLine(product, variant, cartId)
    ensures r.isCartOpen
    ensures r.products == s.products && r.isCheckingOut == s.isCheckingOut && r.orderDone == s.orderDone
  {
    s.(cart := s.cart + [CartLine(product, variant, cartId)], isCartOpen := true)
  }

  /** The "add to cart" button of a product card: it adds the first variant,
      and is disabled (nothing happens) when the product has no variant. */
  function PressAddButton(s: StoreState, product: Product, cartId: int): (r: StoreState)
    ensures product.variants == [] ==> r == s
    ensures product.variants != [] ==>
      r.cart == s.cart + [CartLine(product, product.variants[0], cartId)]
  {
    if |product.variants| == 0 then s else AddToCart(s, product, product.variants[0], cartId)
  }

  /** Keeps exactly the lines whose id differs from `cartId`, in order. Ids
      come from the clock and need not be unique, so every matching line goes. */
  function RemoveFromCart(s: StoreState, cartId: int): (r: StoreState)
    ensures IsSublist(r.cart, s.cart)
    ensures forall l :: l in r.cart <==> l in s.cart && l.cartId != cartId
    ensures forall l :: multiset(r.cart)[l] == if l.cartId != cartId then multiset(s.cart)[l] else 0
    ensures (forall l :: l in s.cart ==> l.cartId != cartId) ==> r == s
    ensures r == s.(cart := r.cart)
  {
    FilterIsSublist(OtherId(cartId), s.cart);
    s.(cart := Filter(OtherId(cartId), s.cart))
  }

  /** Whether a line does not carry the given id. */
  function OtherId(cartId: int): CartLine -> bool {
    (l: CartLine) => l.cartId != cartId
  }

  /** Whether a line carries the given id. */
  function SameId(cartId: int): CartLine -> bool {
    (l: CartLine) => l.cartId == cartId
  }

  /** The prices of the lines, in cart order. */
  function Prices(cart: seq<CartLine>): (r: seq<int>)
    ensures |r| == |cart|
    ensures forall i :: 0 <= i < |cart| ==> r[i] == cart[i].variant.price
  {
    seq(|cart|, i requires 0 <= i < |cart| => cart[i].variant.price)
  }

  /** The cart sub-total: the sum of the line prices. It is 0 for an empty
      cart and never negative when no price is. */
  function Total(cart: seq<CartLine>): (t: int)
    ensures cart == [] ==> t == 0
    ensures (forall i :: 0 <= i < |cart| ==> 0 <= cart[i].variant.price) ==> 0 <= t
  {
    Sum(Prices(cart))
  }

  lemma TotalEmpty()
    ensures Total([]) == 0
  {
  }

  lemma PricesConcat(a: seq<CartLine>, b: seq<CartLine>)
    ensures Prices(a + b) == Prices(a) + Prices(b)
  {
  }

  /** The total is additive over cart concatenation. */
  lemma TotalConcat(a: seq<CartLine>, b: seq<CartLine>)
    ensures Total(a + b) == Total(a) + Total(b)
  {
    PricesConcat(a, b);
    SumAppend(Prices(a), Prices(b));
  }

  lemma TotalCons(l: CartLine, cart: seq<CartLine>)
    ensures Total([l] + cart) == l.variant.price + Total(cart)
  {
    TotalConcat([l], cart);
    assert Prices([l]) == [l.variant.price];
    SumSingleton(l.variant.price);
  }

  /** Adding a line raises the total by exactly that line's price. */
  lemma TotalAfterAdd(s: StoreState, product: Product, variant: Variant, cartId: int)
    ensures Total(AddToCart(s, product, variant, cartId).cart) == Total(s.cart) + variant.price
  {
    var l := CartLine(product, variant, cartId);
    TotalConcat(s.cart, [l]);
    TotalCons(l, []);
    assert [l] + [] == [l];
  }

  /** Removing by id lowers the total by the prices of the removed lines:
      the kept lines and the removed lines together make up the old total. */
  lemma {:induction false} TotalAfterRemove(cart: seq<CartLine>, cartId: int)
    ensures Total(Filter(OtherId(cartId), cart)) + Total(Filter(SameId(cartId), cart)) == Total(cart)
  {
    if cart != [] {
      var h, t := cart[0], cart[1..];
      var keep, drop := OtherId(cartId), SameId(cartId);
      TotalAfterRemove(t, cartId);
      assert cart == [h] + t;
      TotalCons(h, t);
      if h.cartId != cartId {
        assert Filter(keep, cart) == [h] + Filter(keep, t);
        assert Filter(drop, cart) == Filter(drop, t);
        TotalCons(h, Filter(keep, t));
      } else {
        assert Filter(keep, cart) == Filter(keep, t);
        assert Filter(drop, cart) == [h] + Filter(drop, t);
        TotalCons(h, Filter(drop, t));
      }
    }
  }

  /** Adding a line with a fresh id and then removing that id gives back the
      cart that was there before. */
  lemma AddThenRemove(s: StoreState, product: Product, variant: Variant, cartId: int)
    requires forall l :: l in s.cart ==> l.cartId != cartId
    ensures RemoveFromCart(AddToCart(s, product, variant, cartId), cartId).cart == s.cart
  {
    FilterConcat(OtherId(cartId), s.cart, [CartLine(product, variant, cartId)]);
  }

  /** The sum that `reduce` computes, accumulated from the left. */
  method ComputeTotal(cart: seq<CartLine>) returns (acc: int)
    ensures acc == Total(cart)
  {
    acc := 0;
    var i := 0;
    while i < |cart|
      invariant 0 <= i <= |cart|
      invariant acc == Total(cart[..i])
    {
      assert cart[..i + 1] == cart[..i] + [cart[i]];
      TotalConcat(cart[..i], [cart[i]]);
      TotalCons(cart[i], []);
      assert [cart[i]] + [] == [cart[i]];
      acc := acc + cart[i].variant.price;
      i := i + 1;
    }
    assert cart[..i] == cart;
  }

  /** A sequence of "add" events: each is applied in turn. */
  function AddAll(s: StoreState, adds: seq<CartLine>): StoreState
    decreases |adds|
  {
    if adds == [] then s
    else AddAll(AddToCart(s, adds[0].product, adds[0].variant, adds[0].cartId), adds[1..])
  }

  /** No merging: after any sequence of adds the cart has grown by exactly
      the number of adds, and the new lines are the added ones, in order. */
  lemma {:induction false} AddAllAppends(s: StoreState, adds: seq<CartLine>)
    ensures AddAll(s, adds).cart == s.cart + adds
    decreases |adds|
  {
    if adds != [] {
      var s1 := AddToCart(s, adds[0].product, adds[0].variant, adds[0].cartId);
      AddAllAppends(s1, adds[1..]);
      assert s1.cart + adds[1..] == s.cart + adds;
    }
  }

  /** Adding the same variant twice yields two separate lines. */
  lemma AddSameVariantTwice(s: StoreState, product: Product, variant: Variant, id1: int, id2: int)
    ensures var r := AddToCart(AddToCart(s, product, variant, id1), product, variant, id2);
      |r.cart| == |s.cart| + 2
      && r.cart[|s.cart|].variant == variant && r.cart[|s.cart| + 1].variant == variant
  {
  }

  // ---------------------------------------------------------------------
  // Checkout

  /** One order item per cart line, in cart order, each of quantity one. */
  function OrderItems(cart: seq<CartLine>): (r: seq<OrderItem>)
    ensures |r| == |cart|
    ensures forall i :: 0 <= i < |cart| ==>
      r[i] == OrderItem(cart[i].variant.id, 1, cart[i].variant.price)
  {
    seq(|cart|, i requires 0 <= i < |cart| => OrderItem(cart[i].variant.id, 1, cart[i].variant.price))
  }

  function ItemPrices(items: seq<OrderItem>): (r: seq<int>)
    ensures |r| == |items|
    ensures forall i :: 0 <= i < |items| ==> r[i] == items[i].price
  {
    seq(|items|, i requires 0 <= i < |items| => items[i].price)
  }

  /** The order creation request for the current cart. The store id is taken
      from the first product of the catalogue, so an empty catalogue makes
      the request impossible to build (the page's code throws there). */
  function BuildRequest(products: seq<Product>, cart: seq<CartLine>): (r: Option<OrderRequest>)
    ensures r.None? <==> products == []
    ensures r.Some? ==> r.value.storeId == products[0].storeId
    ensures r.Some? ==> r.value.customerInfo == TestCustomer
    ensures r.Some? ==> r.value.items == OrderItems(cart)
    ensures r.Some? ==> |r.value.items| == |cart|
    ensures r.Some? ==> r.value.total == Total(cart)
    ensures r.Some? ==> Sum(ItemPrices(r.value.items)) == r.value.total
  {
    if |products| == 0 then None
    else
      assert ItemPrices(OrderItems(cart)) == Prices(cart);
      Some(OrderRequest(products[0].storeId, TestCustomer, OrderItems(cart), Total(cart)))
  }

  /** What one checkout did: the request sent (if any), the resulting state,
      and whether the failure alert was shown. */
  datatype CheckoutOutcome = CheckoutOutcome(sent: Option<OrderRequest>, state: StoreState, alerted: bool)

  /** `handleCheckout`, with the order service's reply as an input. On
      success the cart is emptied and the success flag raised; on any failure
      (including the request that could not be built) the cart is kept and
      an alert is shown. The in-flight flag is down again either way. */
  function Checkout(s: StoreState, reply: Reply<()>): (r: CheckoutOutcome)
    ensures !r.state.isCheckingOut
    ensures r.state.products == s.products && r.state.isCartOpen == s.isCartOpen
    ensures r.sent == BuildRequest(s.products, s.cart)
    ensures r.sent.Some? && reply.Replied? ==>
      r.state.cart == [] && r.state.orderDone && !r.alerted
    ensures r.sent.None? || reply.Failed? ==>
      r.state.cart == s.cart && r.state.orderDone == s.orderDone && r.alerted
  {
    match BuildRequest(s.products, s.cart)
    case None =>
      CheckoutOutcome(None, s.(isCheckingOut := false), true)
    case Some(req) =>
      match reply
      case Replied(_) =>
        CheckoutOutcome(Some(req), s.(cart := [], orderDone := true, isCheckingOut := false), false)
      case Failed =>
        CheckoutOutcome(Some(req), s.(isCheckingOut := false), true)
  }

  /** The checkout button is enabled only for a non-empty cart, with no
      checkout in flight and no success message showing. */
  function CheckoutEnabled(s: StoreState): (b: bool)
    ensures b ==> BuildRequest(s.products, s.cart).None? || |BuildRequest(s.products, s.cart).value.items| > 0
    ensures s.orderDone ==> !b
    ensures s.isCheckingOut ==> !b
    ensures s.cart == [] ==> !b
    ensures |s.cart| > 0 && !s.isCheckingOut && !s.orderDone ==> b
  {
    |s.cart| > 0 && !s.isCheckingOut && !s.orderDone
  }

  /** Pressing the checkout button. The button is drawn only inside the
      open cart panel, and a disabled button does nothing. */
  function PressCheckout(s: StoreState, reply: Reply<()>): (r: CheckoutOutcome)
    ensures !s.isCartOpen || !CheckoutEnabled(s) ==> r == CheckoutOutcome(None, s, false)
    ensures s.isCartOpen && CheckoutEnabled(s) ==> r.sent == BuildRequest(s.products, s.cart)
    ensures r.sent.Some? ==> |r.sent.value.items| > 0
    ensures s.cart == [] ==> r.sent.None?
  {
    if s.isCartOpen && CheckoutEnabled(s) then Checkout(s, reply) else CheckoutOutcome(None, s, false)
  }

  /** After a successful checkout the button stays disabled (the cart is
      empty and the success flag is up) until the cart is refilled. */
  lemma NoDoubleSubmitAfterSuccess(s: StoreState)
    requires CheckoutEnabled(s) && s.products != []
    ensures !CheckoutEnabled(Checkout(s, Replied(())).state)
  {
  }

  /** A failed checkout can be retried: the button is enabled again and the
      retry sends the very same request. */
  lemma RetryAfterFailure(s: StoreState)
    requires CheckoutEnabled(s)
    ensures var r := Checkout(s, Failed);
      CheckoutEnabled(r.state) && Checkout(r.state, Failed).sent == r.sent
  {
  }
}

=== FILE: team_management.dfy ===
/** Team administration: the role table, member search and role filter, role
    changes, removal of members and invitations, and new invitations. Clock
    readings are inputs (milliseconds since the epoch); dates are UTC day
    numbers. */
module TeamManagement {
  import opened Wrappers
  import opened Seqs
  import opened Text

  datatype RoleInfo = RoleInfo(id: string, name: string, permissions: seq<string>)

  /** The five roles and the permissions each one grants. */
  const Roles: seq<RoleInfo> := [
    RoleInfo("owner", "Owner", ["all"]),
    RoleInfo("admin", "Admin", ["products", "orders", "customers", "analytics", "settings"]),
    RoleInfo("manager", "Manager", ["products", "orders", "customers"]),
    RoleInfo("employee", "Employee", ["orders"]),
    RoleInfo("viewer", "Viewer", ["view"])
  ]

  datatype Member = Member(
    id: string,
    name: string,
    email: string,
    role: string,
    status: string,
    timezone: string,
    permissions: seq<string>,
    twoFactorEnabled: bool)

  datatype Invite = Invite(
    id: string,
    email: string,
    role: string,
    invitedBy: string,
    invitedAt: int,
    expiresAt: int,
    status: string)

  datatype InviteForm = InviteForm(
    email: string,
    role: string,
    message: string,
    sendWelcomeEmail: bool,
    timezone: string)

  const DefaultInviteForm := InviteForm("", "employee", "", true, "UTC+00:00 (London)")

  /** The raised error when a role id is not in the table. */
  datatype TeamError = UnknownRole(role: string)

  // ---------------------------------------------------------------------
  // Role table

  /** The first entry of `table` with the given id (`Array.prototype.find`). */
  function FindIn(table: seq<RoleInfo>, id: string): (r: Option<RoleInfo>)
    ensures r.Some? ==> r.value in table && r.value.id == id
    ensures r.None? <==> forall ri :: ri in table ==> ri.id != id
    ensures r.Some? ==>
      exists i :: 0 <= i < |table| && table[i] == r.value && (forall j :: 0 <= j < i ==> table[j].id != id)
  {
    if table == [] then None
    else if table[0].id == id then Some(table[0])
    else
      var r := FindIn(table[1..], id);
      if r.Some? then
        var i :| 0 <= i < |table[1..]| && table[1..][i] == r.value
          && (forall j :: 0 <= j < i ==> table[1..][j].id != id);
        assert table[i + 1] == r.value;
        r
      else r
  }

  function FindRole(id: string): Option<RoleInfo> {
    FindIn(Roles, id)
  }

  /** A role id is known exactly when it is one of the five table ids, and
      the lookup returns that role's permissions. */
  lemma RoleTable(id: string)
    ensures FindRole(id).Some? <==> id in ["owner", "admin", "manager", "employee", "viewer"]
    ensures FindRole("owner").value.permissions == ["all"]
    ensures FindRole("admin").value.permissions == ["products", "orders", "customers", "analytics", "settings"]
    ensures FindRole("manager").value.permissions == ["products", "orders", "customers"]
    ensures FindRole("employee").value.permissions == ["orders"]
    ensures FindRole("viewer").value.permissions == ["view"]
  {
  }

  // ---------------------------------------------------------------------
  // Search and role filter

  /** The name or e-mail contains the search term, ignoring case. */
  predicate MatchesSearch(m: Member, term: string) {
    Contains(Lower(m.name), Lower(term)) || Contains(Lower(m.email), Lower(term))
  }

  /** The role filter is "all" or names the member's role. */
  predicate MatchesRole(m: Member, filterRole: string) {
    filterRole == "all" || m.role == filterRole
  }

  function Shown(term: string, filterRole: string): Member -> bool {
    (m: Member) => MatchesSearch(m, term) && MatchesRole(m, filterRole)
  }

  /** The members listed under the current search term and role filter. */
  function FilteredMembers(members: seq<Member>, term: string, filterRole: string): (r: seq<Member>)
    ensures IsSublist(r, members)
    ensures forall m :: m in r <==> m in members && MatchesSearch(m, term) && MatchesRole(m, filterRole)
    ensures forall m ::
      (multiset(r)[m] == if MatchesSearch(m, term) && MatchesRole(m, filterRole) then multiset(members)[m] else 0)
  {
    FilterIsSublist(Shown(term, filterRole), members);
    Filter(Shown(term, filterRole), members)
  }

  /** An empty search with filter "all" lists every member, in order. */
  lemma EmptySearchShowsAll(members: seq<Member>)
    ensures FilteredMembers(members, "", "all") == members
  {
    forall m | m in members
      ensures MatchesSearch(m, "")
    {
      ContainsEmpty(Lower(m.name));
    }
  }

  /** With a specific role filter, only members of that role are listed. */
  lemma RoleFilterExact(members: seq<Member>, term: string, role: string)
    requires role != "all"
    ensures forall m :: m in FilteredMembers(members, term, role) ==> m.role == role
  {
  }

  // ---------------------------------------------------------------------
  // Role change, removal, revocation

  predicate HasMember(members: seq<Member>, memberId: string) {
    exists i :: 0 <= i < |members| && members[i].id == memberId
  }

  function Reassign(members: seq<Member>, memberId: string, newRole: string, perms: seq<string>): (r: seq<Member>)
    ensures |r| == |members|
    ensures forall i :: 0 <= i < |members| ==>
      r[i] == if members[i].id == memberId then members[i].(role := newRole, permissions := perms) else members[i]
  {
    seq(|members|, i requires 0 <= i < |members| =>
      if members[i].id == memberId then members[i].(role := newRole, permissions := perms) else members[i])
  }

  /** `handleRoleChange`: the member with the id gets the new role and that
      role's permissions from the table; everyone else is untouched. The table
      lookup happens only for a matching member, so an unknown role fails
      exactly when some member matches. */
  function ChangeRole(members: seq<Member>, memberId: string, newRole: string): (r: Result<seq<Member>, TeamError>)
    ensures r.Err? <==> FindRole(newRole).None? && HasMember(members, memberId)
    ensures r.Ok? ==> |r.value| == |members|
    ensures r.Ok? ==> forall i :: 0 <= i < |members| && members[i].id != memberId ==> r.value[i] == members[i]
    ensures r.Ok? ==> forall i :: 0 <= i < |members| && members[i].id == memberId ==>
      FindRole(newRole).Some? &&
      r.value[i] == members[i].(role := newRole, permissions := FindRole(newRole).value.permissions)
  {
    match FindRole(newRole)
    case Some(info) => Ok(Reassign(members, memberId, newRole, info.permissions))
    case None => if HasMember(members, memberId) then Err(UnknownRole(newRole)) else Ok(members)
  }

  /** Changing a role twice to the same value is the same as once. */
  lemma ChangeRoleIdempotent(members: seq<Member>, memberId: string, newRole: string)
    ensures ChangeRole(members, memberId, newRole).Ok? ==>
      var once := ChangeRole(members, memberId, newRole).value;
      ChangeRole(once, memberId, newRole) == Ok(once)
  {
    if ChangeRole(members, memberId, newRole).Err? { return; }
    var once := ChangeRole(members, memberId, newRole).value;
    match FindRole(newRole)
    case None =>
      assert once == members;
    case Some(info) =>
      var twice := Reassign(once, memberId, newRole, info.permissions);
      assert once == Reassign(members, memberId, newRole, info.permissions);
      assert twice == once by {
        forall i | 0 <= i < |once|
          ensures twice[i] == once[i]
        {
        }
      }
  }

  /** Every member's permissions are the table's list for its role. */
  ghost predicate PermissionsFollowRoles(members: seq<Member>) {
    forall m :: m in members ==> FindRole(m.role).Some? && m.permissions == FindRole(m.role).value.permissions
  }

  /** A successful role change keeps permissions in step with roles. */
  lemma ChangeRoleKeepsPermissionsInStep(members: seq<Member>, memberId: string, newRole: string)
    ensures PermissionsFollowRoles(members) && ChangeRole(members, memberId, newRole).Ok? ==>
      PermissionsFollowRoles(ChangeRole(members, memberId, newRole).value)
  {
    if !PermissionsFollowRoles(members) || ChangeRole(members, memberId, newRole).Err? { return; }
    var r := ChangeRole(members, memberId, newRole).value;
    forall m | m in r
      ensures FindRole(m.role).Some? && m.permissions == FindRole(m.role).value.permissions
    {
      var i :| 0 <= i < |r| && r[i] == m;
      assert members[i] in members;
    }
  }

  function OtherMember(memberId: string): Member -> bool {
    (m: Member) => m.id != memberId
  }

  /** `handleRemoveMember`: drops exactly the members with that id. */
  function RemoveMember(members: seq<Member>, memberId: string): (r: seq<Member>)
    ensures IsSublist(r, members)
    ensures forall m :: m in r <==> m in members && m.id != memberId
    ensures forall m :: multiset(r)[m] == if m.id == memberId then 0 else multiset(members)[m]
    ensures !HasMember(members, memberId) ==> r == members
  {
    FilterIsSublist(OtherMember(memberId), members);
    Filter(OtherMember(memberId), members)
  }

  function OtherInvite(inviteId: string): Invite -> bool {
    (v: Invite) => v.id != inviteId
  }

  /** `handleRevokeInvite`: drops exactly the invitations with that id. */
  function RevokeInvite(invites: seq<Invite>, inviteId: string): (r: seq<Invite>)
    ensures IsSublist(r, invites)
    ensures forall v :: v in r <==> v in invites && v.id != inviteId
    ensures forall v :: multiset(r)[v] == if v.id == inviteId then 0 else multiset(invites)[v]
    ensures (forall v :: v in invites ==> v.id != inviteId) ==> r == invites
  {
    FilterIsSublist(OtherInvite(inviteId), invites);
    Filter(OtherInvite(inviteId), invites)
  }

  // ---------------------------------------------------------------------
  // Invitations

  const MsPerDay: int := 24 * 60 * 60 * 1000

  /** The UTC calendar day of a clock reading (the date part of its ISO
      form), counted from 1970-01-01; before the epoch it rounds down. */
  function UtcDay(ms: int): int {
    ms / MsPerDay
  }

  datatype InviteState = InviteState(invites: seq<Invite>, form: InviteForm, showModal: bool)

  /** The send button is disabled while a send is in flight or the e-mail
      field is empty. */
  function CanSendInvite(loading: bool, form: InviteForm): (b: bool)
    ensures b <==> form.email != [] && !loading
    ensures form == DefaultInviteForm ==> !b
  {
    !loading && form.email != ""
  }

  /** `handleInvite` as written: the invitation date comes from one clock
      reading and the expiry date from a second, later one, each plus the
      seven days for the expiry. */
  function SendInviteAsWritten(st: InviteState, inviteId: string, dateClock: int, expiryClock: int): (r: InviteState)
    ensures |r.invites| == |st.invites| + 1 && r.invites[..|st.invites|] == st.invites
    ensures var v := r.invites[|st.invites|];
      && v.email == st.form.email && v.role == st.form.role && v.status == "pending"
      && v.id == inviteId && v.invitedBy == "Current User"
      && v.invitedAt == UtcDay(dateClock)
      && v.expiresAt == UtcDay(expiryClock) + 7
      && (dateClock <= expiryClock < dateClock + MsPerDay ==>
            v.expiresAt == v.invitedAt + 7 || v.expiresAt == v.invitedAt + 8)
    ensures r.form == DefaultInviteForm && !r.showModal
  {
    var v := Invite(inviteId, st.form.email, st.form.role, "Current User",
                    UtcDay(dateClock), UtcDay(expiryClock + 7 * MsPerDay), "pending");
    InviteState(st.invites + [v], DefaultInviteForm, false)
  }

  /** When the two clock readings straddle midnight UTC, the invitation as
      written expires eight days after its date instead of seven. */
  lemma AsWrittenExpiryCanBeEightDays()
    ensures var st := InviteState([], DefaultInviteForm.(email := "a@b.c"), true);
      var v := SendInviteAsWritten(st, "inv1", MsPerDay - 1, MsPerDay).invites[0];
      v.expiresAt == v.invitedAt + 8
  {
  }

  /** `handleInvite` with a single clock reading for both dates: the new
      invitation, built from the form, is appended; it expires exactly seven
      days after its date; the form is reset and the dialog closed. */
  function SendInvite(st: InviteState, inviteId: string, now: int): (r: InviteState)
    ensures |r.invites| == |st.invites| + 1 && r.invites[..|st.invites|] == st.invites
    ensures var v := r.invites[|st.invites|];
      && v.id == inviteId && v.email == st.form.email && v.role == st.form.role
      && v.status == "pending" && v.invitedBy == "Current User"
      && v.invitedAt == UtcDay(now) && v.expiresAt == v.invitedAt + 7
    ensures r.form == DefaultInviteForm && !r.showModal
  {
    var v := Invite(inviteId, st.form.email, st.form.role, "Current User",
                    UtcDay(now), UtcDay(now + 7 * MsPerDay), "pending");
    InviteState(st.invites + [v], DefaultInviteForm, false)
  }

  /** After a send the form is blank, so the send button stays disabled
      until an e-mail address is typed again. */
  lemma SentFormCannotBeResent(st: InviteState, inviteId: string, now: int)
    ensures !CanSendInvite(false, SendInvite(st, inviteId, now).form)
    ensures CanSendInvite(false, SendInvite(st, inviteId, now).form.(email := "x@y.z"))
  {
  }

  /** A just-sent invitation can be revoked, giving back the previous list
      when its id was fresh. */
  lemma SendThenRevoke(st: InviteState, inviteId: string, now: int)
    requires forall v :: v in st.invites ==> v.id != inviteId
    ensures RevokeInvite(SendInvite(st, inviteId, now).invites, inviteId) == st.invites
  {
    var v := SendInvite(st, inviteId, now).invites[|st.invites|];
    assert SendInvite(st, inviteId, now).invites == st.invites + [v];
    FilterConcat(OtherInvite(inviteId), st.invites, [v]);
  }
}

=== FILE: text.dfy ===
/** The JavaScript string primitives the console relies on: `toLowerCase`,
    `includes`, `startsWith` and `trim`. Strings are sequences of characters. */
module Text {

  /** `toLowerCase` on one character, for the Basic Latin and Latin-1
      letters: 'A'..'Z' and U+00C0..U+00DE (except U+00D7, the
      multiplication sign) move down by 32. */
  function LowerChar(c: char): char {
    if 'A' <= c <= 'Z' || ('\U{C0}' <= c <= '\U{DE}' && c != '\U{D7}')
    then (c as int + 32) as char
    else c
  }

  function Lower(s: string): (r: string)
    ensures |r| == |s|
    ensures forall i :: 0 <= i < |s| ==> r[i] == LowerChar(s[i])
  {
    if s == [] then [] else [LowerChar(s[0])] + Lower(s[1..])
  }

  /** `s.startsWith(prefix)`. */
  function StartsWith(s: string, prefix: string): (b: bool)
    ensures b <==> OccursAt(s, prefix, 0)
    ensures prefix == [] ==> b
  {
    |prefix| <= |s| && s[..|prefix|] == prefix
  }

  /** `needle` occurs in `hay` starting at index `i`. */
  ghost predicate OccursAt(hay: string, needle: string, i: int) {
    0 <= i && i + |needle| <= |hay| && hay[i..i + |needle|] == needle
  }

  /** `hay.includes(needle)`, searching from each start position in turn. */
  function Contains(hay: string, needle: string): (b: bool)
    ensures StartsWith(hay, needle) ==> b
    ensures b ==> |needle| <= |hay|
    decreases |hay|
  {
    StartsWith(hay, needle) || (|hay| > 0 && Contains(hay[1..], needle))
  }

  /** The search agrees with the plain definition of a substring. */
  lemma {:induction false} ContainsIff(hay: string, needle: string)
    ensures Contains(hay, needle) <==> exists i :: OccursAt(hay, needle, i)
    decreases |hay|
  {
    if StartsWith(hay, needle) {
      assert OccursAt(hay, needle, 0);
    }
    if |hay| > 0 {
      ContainsIff(hay[1..], needle);
      if Contains(hay[1..], needle) {
        var j :| OccursAt(hay[1..], needle, j);
        assert hay[1..][j..j + |needle|] == hay[j + 1..j + 1 + |needle|];
        assert OccursAt(hay, needle, j + 1);
      }
      if i :| OccursAt(hay, needle, i) {
        if i > 0 {
          assert hay[1..][i - 1..i - 1 + |needle|] == hay[i..i + |needle|];
          assert OccursAt(hay[1..], needle, i - 1);
        } else {
          assert StartsWith(hay, needle);
        }
      }
    } else {
      if i :| OccursAt(hay, needle, i) {
        assert needle == [];
        assert StartsWith(hay, needle);
      }
    }
  }

  /** Every string contains the empty string. */
  lemma ContainsEmpty(hay: string)
    ensures Contains(hay, "")
  {
    assert StartsWith(hay, "");
  }

  /** The characters `trim` removes: ECMAScript WhiteSpace and
      LineTerminator code points. */
  predicate IsSpace(c: char) {
    var n := c as int;
    n == 0x09 || n == 0x0A || n == 0x0B || n == 0x0C || n == 0x0D || n == 0x20
    || n == 0xA0 || n == 0x1680 || (0x2000 <= n <= 0x200A) || n == 0x2028
    || n == 0x2029 || n == 0x202F || n == 0x205F || n == 0x3000 || n == 0xFEFF
  }

  /** The number of white-space characters `s` starts with. */
  function LeadingSpaces(s: string): (n: nat)
    ensures n <= |s|
    ensures forall k :: 0 <= k < n ==> IsSpace(s[k])
    ensures n == |s| || !IsSpace(s[n])
  {
    if s == [] || !IsSpace(s[0]) then 0 else 1 + LeadingSpaces(s[1..])
  }

  /** The index at which the trailing white space of `s` begins. */
  function TrailingStart(s: string): (n: nat)
    ensures n <= |s|
    ensures forall k :: n <= k < |s| ==> IsSpace(s[k])
    ensures n == 0 || !IsSpace(s[n - 1])
  {
    if s == [] || !IsSpace(s[|s| - 1]) then |s| else TrailingStart(s[..|s| - 1])
  }

  /** `t` occurs in `s` at index `i`, and everything of `s` before and after
      that occurrence is white space. */
  ghost predicate PaddedAt(s: string, t: string, i: int) {
    OccursAt(s, t, i)
    && (forall k :: 0 <= k < i ==> IsSpace(s[k]))
    && (forall k :: i + |t| <= k < |s| ==> IsSpace(s[k]))
  }

  /** `s.trim()`: `s` without its leading and trailing white space. The
      result sits inside `s` with only white space around it, and neither
      starts nor ends with white space itself. */
  function Trim(s: string): (r: string)
    ensures r == [] || (!IsSpace(r[0]) && !IsSpace(r[|r| - 1]))
    ensures r == [] <==> forall k :: 0 <= k < |s| ==> IsSpace(s[k])
    ensures exists i :: PaddedAt(s, r, i)
  {
    var i := LeadingSpaces(s);
    var j := TrailingStart(s);
    if j <= i then
      assert PaddedAt(s, [], 0);
      []
    else
      assert PaddedAt(s, s[i..j], i);
      s[i..j]
  }

  /** The trimmed text is the only text that fits that description: any
      `t` with only white space around it in `s` and none at its own ends
      is `Trim(s)`. */
  lemma {:induction false} TrimUnique(s: string, t: string, i: int)
    requires PaddedAt(s, t, i)
    requires t == [] || (!IsSpace(t[0]) && !IsSpace(t[|t| - 1]))
    ensures t == Trim(s)
  {
    if t != [] {
      var a, b := LeadingSpaces(s), TrailingStart(s);
      assert s[i] == t[0];
      assert s[i + |t| - 1] == t[|t| - 1];
      assert a == i;
      assert b == i + |t|;
    }
  }

  /** Trimming twice is the same as trimming once. */
  lemma TrimIdempotent(s: string)
    ensures Trim(Trim(s)) == Trim(s)
  {
    var r := Trim(s);
    if r != [] {
      assert LeadingSpaces(r) == 0;
      assert TrailingStart(r) == |r|;
    }
  }
}

=== FILE: themes.dfy ===
/** The theme library page: the published ("current") theme is shown apart
    from the others. */
module Themes {
  import opened Wrappers
  import opened Seqs

  datatype Theme = Theme(id: string, name: string, status: string)

  predicate IsCurrent(t: Theme) {
    t.status == "current"
  }

  /** `currentTheme`: the first theme whose status is "current", if any. */
  function CurrentTheme(themes: seq<Theme>): (r: Option<Theme>)
    ensures r.None? <==> forall t :: t in themes ==> !IsCurrent(t)
    ensures r.Some? ==> IsCurrent(r.value) && r.value in themes
    ensures r.Some? ==>
      exists i :: 0 <= i < |themes| && themes[i] == r.value && (forall j :: 0 <= j < i ==> !IsCurrent(themes[j]))
  {
    var i := FirstIndex((t: Theme) => IsCurrent(t), themes);
    if i < |themes| then Some(themes[i]) else None
  }

  function NotCurrent(): Theme -> bool {
    (t: Theme) => !IsCurrent(t)
  }

  /** `otherThemes`: exactly the themes that are not current, in order. */
  function OtherThemes(themes: seq<Theme>): (r: seq<Theme>)
    ensures IsSublist(r, themes)
    ensures forall t :: t in r <==> t in themes && !IsCurrent(t)
    ensures forall t :: multiset(r)[t] == if IsCurrent(t) then 0 else multiset(themes)[t]
  {
    FilterIsSublist(NotCurrent(), themes);
    Filter(NotCurrent(), themes)
  }

  /** The current theme is never among the others. */
  lemma CurrentNotAmongOthers(themes: seq<Theme>)
    requires CurrentTheme(themes).Some?
    ensures CurrentTheme(themes).value !in OtherThemes(themes)
  {
  }

  /** With no current theme, every theme is listed among the others. */
  lemma NoCurrentListsAll(themes: seq<Theme>)
    requires CurrentTheme(themes).None?
    ensures OtherThemes(themes) == themes
  {
  }

  /** The other themes and the current ones together account for every theme. */
  lemma Partition(themes: seq<Theme>)
    ensures |OtherThemes(themes)| + |Filter((t: Theme) => IsCurrent(t), themes)| == |themes|
  {
    FilterComplementLength(NotCurrent(), (t: Theme) => IsCurrent(t), themes);
  }
}

=== FILE: wrappers.dfy ===
/** Failure-carrying datatypes used across the model: an absent value and
    an operation that either produces a value or fails with an error. */
module Wrappers {

  /** A value that may be missing (JavaScript `undefined` or `null`). */
  datatype Option<+T> = None | Some(value: T) {
    function GetOr(default: T): T {
      match this
      case Some(v) => v
      case None => default
    }
  }

  /** The outcome of a step that may throw: `Err` stands for the exception. */
  datatype Result<+T, +E> = Ok(value: T) | Err(error: E)
}
